=== FILE: README.md ===
# A verified model of the athlete-certificate prober

The repository has two parts. This project models both in Dafny and proves what they promise.

**`sniper.py`** probes a range of certificate numbers for one athlete against a rank-lookup service:

- `query_one` classifies each reply. It writes what is worth keeping through to a cache keyed `name_certno`. Some refusal shapes are not cached.
- `batch_query` runs the numbers a hundred at a time. It records the answers in number order in a streamed JSON array file, counts hits, fresh queries, successes and finds, and appends each newly found certificate number to a text ledger, `certificates.txt`. At the end it saves the cache to `history.json` as one JSON array and renames the result file.
- `main` refuses an empty name, non-numeric range ends and a reversed range. It asks before running very large ranges.

**`single.py`** (`test_rank_search_api`) looks up an athlete by name, page by page:

- The first page decides whether there is anything to fetch and how many records there are.
- The later pages are estimated at six records a page and fetched concurrently.
- Those pages are filtered, then merged in ascending page order until the record count is reached.

## How the model is built

- The network is a parameter. A probe of one number is `Probe` in `query.dfy`:
  - a raised exception;
  - a status with a decoded body;
  - a 200 reply whose body does not decode.

  A page fetch is `Fetched` in `pages.dfy`. The clock reading and the run's timestamp are parameters too.
- JSON values are a datatype (`JsonValue.Json`). Python dicts are modelled as insertion-ordered dicts (`Dicts.Dict`), because `save_cache` writes values in insertion order.
- These Python operations are spelled out:
  - `==` against an int, where `True == 1`;
  - truthiness;
  - `str()` and `repr()`;
  - `dict.get` on a non-dict, which raises;
  - `int()` on text;
  - `str.strip`;
  - set membership with `True == 1` (`Ledger.HashKey`).
- Files are sequences:
  - The cache file and the result stream are sequences of chunks: an opening bracket, elements that each carry their trailing comma or not, and a closing bracket. `ArrayFile.Parse` says what `json.load` makes of such a file.
  - The ledger is its sequence of lines.
- Exceptions that escape the code are `Raise`/`Raised`/`Stopped`/`Crashed` values carrying the message the code would print.
- Concurrency:
  - `asyncio.gather` within a batch is a sequential map over the batch's numbers. `Batch.GatherAnswers`, `Batch.GatherStores` and `Batch.GatherFrame` prove that every answer is the one its number gets against the cache from before the batch. So the order in which the queries run does not change any entry.
  - The thread pool of `single.py` is a fold over the completion order. `RankSearch.CompletionOrderIrrelevant` proves that order does not matter.

## Model

| member | source | states |
|---|---|---|
| CacheStore.CacheKeyInjective | sniper.py:124-126 | for one athlete, different certificate numbers give different cache keys |
| CacheStore.LoadCache | sniper.py:45-65 | a missing or corrupt file, or a JSON value other than a list or dict, loads as `{}`; a dict loads as it is; a list loads so that each key holds the last dict item with both `name` and `cert_no` whose `name_certno` is that key |
| CacheStore.LoadedArrayCanonical | sniper.py:52-58 | every entry of a cache loaded from a list sits under the key its own `name` and `cert_no` give |
| CacheStore.SaveCache | sniper.py:111-122 | the saved file is `[`, then every cached value in insertion order, each but the last followed by a comma, then `]` |
| CacheStore.SaveLoadRoundTrip | sniper.py:45-65 | saving a cache in which every entry sits under its own key and loading the file back gives the same cache, keys and order alike |
| CacheStore.ReloadValues | sniper.py:53-58 | re-keying the saved values of such a cache rebuilds it exactly |
| ArrayFile.ParseLayout | sniper.py:114-122 | an array written with commas after all elements but the last decodes to exactly those elements |
| ArrayFile.ParseOnlyLayout | sniper.py:114-122 | a chunk sequence that decodes to some elements is exactly the comma layout of those elements |
| ArrayFile.WrittenAppend | sniper.py:293-303 | the elements written by two consecutive writers are those of the first followed by those of the second |
| Query.FailureResponse | sniper.py:178-184 | a failure response carries exactly `query_success` false, `has_data` false and the given `error`, in that order |
| Query.Entry | sniper.py:225-230 | a cache entry carries `time`, `cert_no`, `name` and `response` for its own number and athlete |
| Query.Decide | sniper.py:169-216 | a decoded 200 reply is kept exactly when it is not one of the two refusal shapes; a refused reply becomes a failure response carrying the refusal's message; a decoded value that is not a dict is recorded unchanged and cached |
| Query.HasData | sniper.py:205-210 | the `has_data` test is true exactly when `response` and `error` are 0 and `data.total` is above 0, and raises exactly when both codes are 0 but `data` is not a dict or `total` is not a number |
| Query.ServerFlaggedKept | sniper.py:213-216 | a reply without `response` that already carries `query_success` and is not refused is recorded as it came |
| Query.UnflaggedReply | sniper.py:213-215 | a reply with neither `response` nor `query_success` that is not refused gets `query_success` true and `has_data` false appended, every other field kept |
| Query.Classify | sniper.py:169-216 | a reply is refused exactly when it lacks `response` and its `error` is null or `""`, or has both fields and an `error` that is neither `0` nor `"0"`; the first is refused with the invalid-response message, the second with `API返回error=<error>，查询失败`; a failure other than a refusal arises only when the data test raises on a reply with `response`, and carries that exception's message; a value that is not a dict passes the checks untouched |
| Query.Respond | sniper.py:149-246 | the response for a probe is kept exactly when the probe is not a refused 200 reply; refusals become failure responses; a status other than 200 records the failure `HTTP <status>`; an exception records a failure carrying its message; a decoded 200 body is decided as above and an undecodable one is recorded as its stand-in dict |
| Query.QueryOne | sniper.py:128-246 | a hit returns the stored entry with `from_cache` set and leaves the cache alone; a miss builds an entry for this number and athlete whose response is the one the probe's reply is decided into, and leaves the cache unchanged exactly when the reply is refused, otherwise appends exactly this key with that entry; a refusal is marked as a failure |
| Query.UndecodableKept | sniper.py:155-167 | the dict built for an undecodable body is never refused, is kept unchanged, and has `query_success` and `has_data` false |
| Query.UndecodableShape | sniper.py:155-167 | that dict holds both flags false, the `JSON解析失败:` error with the parser's message, the reply's content type or `未知` when it has none, and the body text cut to its first 500 characters |
| Query.Excerpt | sniper.py:166 | `text[:500]` is the whole text when it has at most 500 characters, and otherwise its first 500 |
| Query.AnnotatedReply | sniper.py:203-244 | a kept reply with `response` gets `query_success` true and `has_data` true exactly when `response == 0`, `error == 0` and `data.total > 0`, with every other field kept; a reply on which that test raises becomes a failure response carrying the exception's message |
| Query.FlagsAgree | sniper.py:203-216 | unless the service itself sent `query_success` on a reply without `response`, a stored response with `has_data` set also has `query_success` set |
| Query.DecidedFlagsAgree | sniper.py:203-216 | the same for the decision on one decoded reply |
| Query.QueryKeepsCanonical | sniper.py:225-245 | a query keeps every entry of the cache under its own key |
| Query.QueryLocal | sniper.py:128-246 | a query's entry and the value it leaves under its key depend only on that key's old value; `from_cache` says whether the key was present; every other key is untouched |
| Ledger.ParseLine | sniper.py:74-84 | a line records an id only when, once stripped, it starts with the label `证书编号:` and not with `===`; the id is non-empty, stripped and free of `|` |
| Ledger.IdsInSpec | sniper.py:67-86 | the loader collects exactly the ids some line records |
| Ledger.LoadFoundSpec | sniper.py:67-86 | the start-up load gives exactly the ids some line of the file records |
| Ledger.IdsInAppend | sniper.py:72-84 | loading two runs of lines is the union of loading each |
| Ledger.HeaderSilent | sniper.py:98-101 | no header line records an id, so a header alone loads as nothing |
| Ledger.RuleSilent | sniper.py:75 | a rule of `=` characters records nothing |
| Ledger.EntryLineRoundTrip | sniper.py:103-109 | the line written for a stripped number without `\|` or the label loads back as exactly that number |
| Ledger.ParseHeaded | sniper.py:74-84 | a line that starts with the label, one space, the id and ` \|` records exactly that id |
| Ledger.HashKey | sniper.py:90-94 | set membership treats `True` as `1` and `False` as `0`, and leaves every other value alone |
| Ledger.Open | sniper.py:20-21 | the ledger opened from a file remembers exactly the ids its lines record |
| Ledger.SaveFound | sniper.py:88-109 | a non-dict raises; a falsy number, or one already known, changes nothing; an unhashable number raises; a new number is remembered and exactly its line appended, after the header only when the file was empty |
| Ledger.SaveKeepsSynced | sniper.py:88-109 | for a well-formed string number, a save keeps memory and file in step and never records a number twice |
| Ledger.SaveEach | sniper.py:326-327 | a run of saves only appends to the file and only adds to the remembered set; a run that raises nothing met only dicts, and every truthy certificate number among them is hashable and remembered afterwards |
| Ledger.SaveEachAppend | sniper.py:326-327 | saving two runs of athletes in turn is saving them all at once; a failure in the first run skips the second |
| Ledger.SaveEachSynced | sniper.py:326-327 | saving well-formed numbers one by one never fails and keeps memory, file and uniqueness in step |
| Ledger.AppendedLoad | sniper.py:96-109 | appending a header and an entry line adds exactly the entry's id to what the file loads as |
| Ledger.UniqueAppend | sniper.py:90-109 | appending a line for an id the file does not yet record keeps every id on one line only |
| Batch.Ids | sniper.py:250-251 | the numbers probed are `str(i)` for every `i` from start to end, `end - start + 1` of them, or none for a reversed range |
| Batch.RangeDistinct | sniper.py:250 | the numbers of a range are pairwise different |
| Batch.BatchesInRange | sniper.py:283-286 | batch `k` is `[100k, min(100k + 100, total))`, and there are `ceil(total / 100)` batches |
| Batch.BatchesChained | sniper.py:283-286 | the batches start at 0, each ends where the next starts, the last ends at the total, so every index is covered once, in ascending order |
| Batch.GatherAnswers | sniper.py:288-290 | every answer of a batch is the one its number gets against the cache from before the batch, whatever the others did |
| Batch.GatherStores | sniper.py:288-290 | after a batch, each of its keys holds what its own query stores |
| Batch.GatherFrame | sniper.py:288-290 | a batch changes no key outside its own numbers' keys |
| Batch.Inspect | sniper.py:310-327 | counting a response adds one success when `query_success` is truthy, one valid result when `has_data` is truthy, and the length of `data.list`; those athletes are saved to the ledger in order, a failing save stops the run; the cache, the results, the stream and the hit and miss counters are untouched |
| Batch.Record | sniper.py:293-327 | recording an answer appends its entry to the results, writes its element with a comma exactly when it is not the last of the run, and counts it as a hit or a fresh query; an entry that is not a dict then stops the run with the exception `.get` raises on it, and otherwise the run goes on exactly when saving the athletes its response reports raises nothing |
| Batch.RecordAll | sniper.py:293-329 | recording a batch leaves the cache alone, records at most its answers and all of them when nothing stops it; when a stop happens is stated through `Batch.RecordFeeds` and `Batch.RunLedger` |
| Batch.RecordFeeds | sniper.py:293-327 | recording one more entry saves, in order, the athletes its response reports, and counts its success, data and athletes; the loop goes on exactly when the entry is a dict and none of those saves raised |
| Batch.RunBatchKeeps | sniper.py:284-329 | after each batch the entries so far are those their queries give against the starting cache, in number order; the stream is `[` and one element each; the hit counter counts the numbers cached at the start |
| Batch.RunBatchesKeeps | sniper.py:284-329 | the same holds across the batches, and a run that is not stopped has recorded every number |
| Batch.RunKeeps | sniper.py:284-329 | from the initial state, every run's entries are a prefix of what each number's query gives against the starting cache, in number order; a run not stopped has them all |
| Batch.BatchQuery | sniper.py:248-340 | a run, completed or cut short, only appends to the ledger file and only adds to the remembered numbers |
| Batch.Conclude | sniper.py:331-340 | a run completes exactly when no exception stopped it; it then closes the stream, saves the final cache and takes the final name; a stopped run keeps its temporary name and unclosed stream; the ledger, cache, entries and counters are carried over |
| Batch.RunLedger | sniper.py:284-329 | completed or stopped, a run's ledger is the starting ledger with the athletes reported by the recorded entries saved in entry order, and the success, data and athlete counters count those entries; a run completes exactly when no save failed and every entry it recorded is a dict, so it stops only through the two exceptions the loop can raise |
| Batch.RunLedgerSynced | sniper.py:88-109 | on a ledger whose memory and file agree, a run that finds only well-formed string numbers keeps them in agreement and records no number twice |
| Batch.CompletedRun | sniper.py:248-340 | a completed run's result file has the final name and is the closed array of one entry per number; hits equal the numbers cached at the start; hits and fresh queries add up to the range; no other key changes; the saved cache loads back as the final cache |
| Batch.CompletedNumbers | sniper.py:284-331 | in a completed run, entry `i` is what `query_one` gives for number `i` against the starting cache, and that number's key holds what that query stores |
| Batch.CrashedRun | sniper.py:266-303 | a run stopped by an exception leaves the result file under its temporary name, holding a prefix of the planned entries, unclosed and so not a valid JSON array |
| Batch.Admit | sniper.py:393-416 | a run is launched exactly when the stripped name is non-empty, both ends parse as integers, start does not exceed end, and a range wider than 10001 is confirmed; an empty name, a non-numeric end and a reversed range are refused with `main`'s messages, and only an unconfirmed wide range is declined |
| Batch.LaunchedRange | sniper.py:393-412 | a launched run has a stripped non-empty name and probes at least one number, more than 10002 only with consent |
| Text.IntRoundTrip | sniper.py:250 | `int(str(i)) == i`: the numbers probed read back as the integers they came from |
| Text.StripPadded | sniper.py:73 | stripping a stripped text surrounded by white space gives the text |
| RankSearch.Elements | single.py:67-69 | what `extend` appends and `len` counts: a list's items, one entry per character of a string, one per key of a dict; other values have neither |
| RankSearch.ToIntReads | single.py:64 | `int()` reads a number sent as an integer or as its decimal text; `null`, a list or a dict raises |
| RankSearch.Opening | single.py:47-69 | the first page stops the search with `None` exactly when the fetch fails, or the reply is a dict without `response == 1` and `error == 0` or without `data`; it goes on exactly when the reply is a dict that passes the check, `data` is a dict, `total` reads as an integer and `list_data` has a length, and then with that count and page 1's records |
| RankSearch.SearchRanks | single.py:47-135 | the search returns `None` exactly when the first request fails or its dict reply fails the `response`/`error` check or lacks `data`; the records it returns are all dicts |
| RankSearch.PageOneFirst | single.py:69-118 | whatever the later pages give, a search that returns records returns page 1's records first |
| RankSearch.SinglePage | single.py:71-87 | without `fetch_all`, when page 1 already covers the count, or when it is empty, the result is page 1's records and no other page is consulted |
| RankSearch.Remaining | single.py:89-91 | the pages after the first are `2, 3, …` up to `ceil(total / 6)`: none when `total <= 6`, and at six records a page exactly enough to hold `total` |
| RankSearch.PagePayload | single.py:100-112 | a later page is kept exactly for a dict reply with `response == 1`, a dict under `data` and a non-empty `list_data`, and what is kept is that `list_data` |
| RankSearch.PageErrorIgnored | single.py:104 | unlike the first page, a later page is kept whatever its `error` field says |
| RankSearch.CollectSpec | single.py:97-112 | a page is in the merge map exactly when it was requested and its reply was kept, and it maps to that reply's `list_data` |
| RankSearch.Collect | single.py:97-112 | every page in the merge map was requested and maps to its own reply's kept `list_data` |
| RankSearch.CompletionOrderIrrelevant | single.py:96-112 | the merge map does not depend on the order in which the requests complete |
| RankSearch.AscendingSpec | single.py:115 | the keys merged are strictly ascending and are exactly the map's keys in the page range |
| RankSearch.KeptPagesSpec | single.py:96-116 | the pages merged are exactly the estimated later pages whose replies were kept, ascending, each contributing its own reply's records |
| RankSearch.MergeCut | single.py:115-118 | where the cut falls, the merge gives page 1's records followed by those of the pages before the cut |
| RankSearch.Merge | single.py:115-118 | a merge that succeeds begins with the records it started from; one that raises met a page whose `list_data` cannot be iterated |
| RankSearch.MergeHasCut | single.py:115-118 | a merge that does not raise stops at such a cut: the count stays below `total` after every merged page but the last, and once it reaches `total` no further page is merged |
| RankSearch.MergedSearch | single.py:89-135 | with `fetch_all`, when page 1 holds fewer than `total` records and is not empty, and the merge stops at a cut, the search shows page 1's records followed by those of the kept pages before the cut: it returns them when all are dicts and raises otherwise |
| RankSearch.MergedInPageOrder | single.py:89-135 | a search that goes past page 1 and succeeds returns page 1's records, then the kept pages' records in ascending page order, up to the cut |
| RankSearch.Shown | single.py:77-87 | listing the records succeeds exactly when every record is a dict, and then returns them unchanged; otherwise it raises on a non-dict record |

## Left out

- HTTP plumbing is not modelled:
  - sessions, headers, cookies and time-outs;
  - the 0.05-second pause;
  - the request parameters of both scripts.

  Each probe or page fetch is an input.
- `asyncio.gather`, the connector limit and the thread pool are not modelled as interleavings.
  - Within a batch the queries touch pairwise different cache keys, and the proofs show every answer is independent of the others.
  - The model adds new keys to the cache in number order. The source adds them in completion order, so the key order of the saved cache file may differ from the model's by a permutation within each batch. The values are the same.
- Console output is not modelled: `tqdm`, all `print` calls, the summary statistics and the record listings. The exceptions the listings can raise are modelled as follows:
  - In `single.py`, the record listing runs before the return, so a non-dict record makes the search raise. This is modelled (`RankSearch.Shown`).
  - In `sniper.py`, the summary after the rename can raise for an empty range, through a division by zero. It can also raise on a non-dict response while listing failures. Neither changes any file, so these are not modelled. `main` never launches an empty range.
- `datetime.now()` is a parameter: `now` for cache entries, `stamp` for the result file name. One clock reading is used for every entry of a run.
- JSON text is not modelled. This covers `json.dumps` and `json.loads` on actual text, `ensure_ascii`, indentation and newlines; files are sequences of elements or lines. `ArrayFile.Parse` accepts exactly the comma layout the writers produce.
- `repr()` of a string is modelled without escaping quotes or control characters.
- Floating-point JSON numbers are not modelled, so neither is the success-rate division. JSON numbers are integers.
- `int()` on text accepts optional white space, a sign and ASCII digits. It does not accept underscores or non-ASCII digits.
- Ledger fields that contain a newline would split a ledger line in the file. Lines are modelled as written, one per entry.
- A ledger file that does not end in a newline would have the next line glued onto its last line, because the source appends without checking. The model appends whole lines.
- `os.path.join("logs", …)` is modelled as the POSIX join `logs/…`.
- `input()` prompting is not modelled. The three answers and the confirmation reply are parameters of `Batch.Admit`.
- The first page of `single.py` treats a reply `response.json()` cannot decode as a `requests` exception, which returns `None`. That is the behaviour of current `requests`, whose `JSONDecodeError` derives from `RequestException`.
- `test_univsport_api.py` is a live-network test of the remote service and is not modelled.
- Batch.BatchQuery: its own contract states only that the ledger file is appended to. What a run records is stated by `Batch.CompletedRun`, `Batch.CompletedNumbers` and `Batch.CrashedRun`, and what it does to the ledger and the counters by `Batch.RunLedger`.
- Ledger.SaveKeepsSynced: it is stated for string certificate numbers only. A number the service sends as a JSON integer is remembered as an integer, but the next start-up reads it back from the file as text. Such a number would be appended again in a later run.
- The ledger header is three lines followed by a blank line, four lines in all. `Ledger.HeaderSilent` covers all four.

=== FILE: array_file.dfy ===
/**
 A JSON array written to a file piece by piece, as both `save_cache` and the
 result stream of `batch_query` do: an opening bracket, one element per write,
 each followed by a comma unless it is the last, and a closing bracket. The text
 between the pieces (indentation, newlines) is immaterial to `json.load` and is
 not modelled; the commas are, because a missing or extra comma is a syntax error.
 */
module ArrayFile {
  import opened Outcomes
  import opened JsonValue

  datatype Chunk = Open | Element(value: Json, comma: bool) | Close

  /** The element chunks of an array holding `xs`: a comma after all but the last. */
  function Body(xs: seq<Json>): (cs: seq<Chunk>)
    ensures |cs| == |xs|
    ensures forall i :: 0 <= i < |xs| ==> cs[i] == Element(xs[i], i < |xs| - 1)
  {
    seq(|xs|, i requires 0 <= i < |xs| => Element(xs[i], i < |xs| - 1))
  }

  /** The chunks of a complete array holding `xs`. */
  function Layout(xs: seq<Json>): (cs: seq<Chunk>)
    ensures |cs| == |xs| + 2
    ensures cs[0] == Open && cs[|cs| - 1] == Close
    ensures forall i :: 0 <= i < |xs| ==> cs[i + 1] == Element(xs[i], i < |xs| - 1)
  {
    [Open] + Body(xs) + [Close]
  }

  /** The elements of a comma-separated run `v0, v1, ..., vn` (no trailing comma). */
  function ParseItems(cs: seq<Chunk>): Option<seq<Json>>
  {
    if cs == [] then Some([])
    else if !cs[0].Element? then None
    else if |cs| == 1 then (if cs[0].comma then None else Some([cs[0].value]))
    else if !cs[0].comma then None
    else match ParseItems(cs[1..])
      case None => None
      case Some(rest) => if rest == [] then None else Some([cs[0].value] + rest)
  }

  /** What `json.load` makes of the written file: the array's elements, or None
      when the text is not a complete JSON array. */
  function Parse(cs: seq<Chunk>): Option<seq<Json>>
  {
    if |cs| < 2 || cs[0] != Open || cs[|cs| - 1] != Close then None
    else ParseItems(cs[1..|cs| - 1])
  }

  /** The elements written so far, whether or not the array was closed. */
  function Written(cs: seq<Chunk>): seq<Json>
  {
    if cs == [] then []
    else (if cs[0].Element? then [cs[0].value] else []) + Written(cs[1..])
  }

  lemma {:induction false} ParseItemsBody(xs: seq<Json>)
    ensures ParseItems(Body(xs)) == Some(xs)
    decreases |xs|
  {
    if |xs| >= 2 {
      ParseItemsBody(xs[1..]);
      assert Body(xs)[1..] == Body(xs[1..]);
      assert [xs[0]] + xs[1..] == xs;
    } else if |xs| == 1 {
      assert Body(xs) == [Element(xs[0], false)];
      assert xs == [xs[0]];
    }
  }

  /** Every array written with the comma discipline reads back as the values written. */
  lemma ParseLayout(xs: seq<Json>)
    ensures Parse(Layout(xs)) == Some(xs)
  {
    var cs := Layout(xs);
    assert cs[1..|cs| - 1] == Body(xs);
    ParseItemsBody(xs);
  }

  lemma {:induction false} ItemsCanonical(cs: seq<Chunk>, xs: seq<Json>)
    requires ParseItems(cs) == Some(xs)
    ensures |cs| == |xs|
    ensures forall i :: 0 <= i < |xs| ==> cs[i] == Element(xs[i], i < |xs| - 1)
    decreases |cs|
  {
    if |cs| >= 2 {
      ItemsCanonical(cs[1..], xs[1..]);
    }
  }

  /** The layout is the only way to write a given array: a file that reads back
      as `xs` is exactly `Layout(xs)`. */
  lemma ParseOnlyLayout(cs: seq<Chunk>, xs: seq<Json>)
    requires Parse(cs) == Some(xs)
    ensures cs == Layout(xs)
  {
    ItemsCanonical(cs[1..|cs| - 1], xs);
    var l := Layout(xs);
    assert |cs| == |l|;
    forall i | 0 <= i < |cs|
      ensures cs[i] == l[i]
    {
      if 0 < i < |cs| - 1 {
        assert cs[i] == cs[1..|cs| - 1][i - 1];
      }
    }
  }

  lemma {:induction false} WrittenAppend(a: seq<Chunk>, b: seq<Chunk>)
    ensures Written(a + b) == Written(a) + Written(b)
    decreases |a|
  {
    if a == [] {
      assert a + b == b;
    } else {
      assert (a + b)[0] == a[0];
      assert (a + b)[1..] == a[1..] + b;
      WrittenAppend(a[1..], b);
    }
  }
}

=== FILE: batch.dfy ===
/**
 `batch_query`: probe every certificate number of an inclusive range for one
 athlete, a hundred at a time; record each answer in order in the result
 stream, the counters and the ledger; then save the cache, close the stream and
 give the result file its final name. Also the range checks `main` applies
 before a run.
 */
module Batch {
  import opened Outcomes
  import opened Text
  import opened Dicts
  import opened JsonValue
  import opened ArrayFile
  import opened CacheStore
  import opened Query
  import opened Ledger

  const BatchSize := 100

  /** `[str(i) for i in range(start, end + 1)]` */
  function Ids(start: int, end: int): (ids: seq<string>)
    ensures |ids| == if start <= end then end - start + 1 else 0
    ensures forall i :: 0 <= i < |ids| ==> ids[i] == IntToString(start + i)
  {
    if start > end then [] else seq(end - start + 1, i => IntToString(start + i))
  }

  /** `(batch_start, batch_end)` for every `batch_start` in `range(from, total, 100)`. */
  function BatchesFrom(from: nat, total: nat): (bs: seq<(nat, nat)>)
    ensures forall i :: 0 <= i < |bs| ==> from <= bs[i].0 < bs[i].1 <= total
    decreases total - from
  {
    if from >= total then []
    else [(from, if from + BatchSize < total then from + BatchSize else total)] + BatchesFrom(from + BatchSize, total)
  }

  function Batches(total: nat): (bs: seq<(nat, nat)>)
    ensures forall i :: 0 <= i < |bs| ==> bs[i].0 < bs[i].1 <= total
  {
    BatchesFrom(0, total)
  }

  /** The counters the run reports. */
  datatype Tally = Tally(cachedHits: nat, newQueries: nat, successful: nat, validData: nat, foundAthletes: nat)

  /** The run's state: the cache, the ledger, the entries so far, and the
      pieces of the result stream written so far. */
  datatype State = State(cache: Cache, ledger: Ledger, results: seq<Json>, stream: seq<Chunk>, tally: Tally)

  /** A run in progress, or stopped by an exception with the state it left. */
  datatype Progress = Going(s: State) | Stopped(message: string, s: State)

  /** The cache key of each number for the athlete `name`. */
  function KeyFor(name: string): string -> string
  {
    cert => CacheKey(name, cert)
  }

  /** `query_one` for each number, against a given cache, with `probe` telling
      what the service does for that number. */
  function AskFor(name: string, now: string, probe: string -> Probe): (Cache, string) -> Answer
  {
    (c: Cache, cert: string) => QueryOne(c, name, cert, now, probe(cert))
  }

  /** `asyncio.gather` over the numbers `ids[lo..hi]`: the answers in number
      order, the queries sharing one cache. */
  function Gather(c: Cache, ask: (Cache, string) -> Answer, ids: seq<string>, lo: nat, hi: nat)
    : (out: (Cache, seq<Answer>))
    requires lo <= hi <= |ids|
    ensures |out.1| == hi - lo
    decreases hi - lo
  {
    if lo == hi then (c, [])
    else
      var a := ask(c, ids[lo]);
      var rest := Gather(a.cache, ask, ids, lo + 1, hi);
      (rest.0, [a] + rest.1)
  }

  /** The element written for the entry at global position `idx` of `total`. */
  function Piece(entry: Json, idx: nat, total: nat): Chunk
  {
    Element(entry, idx < total - 1)
  }

  /** The response reports a successful query: a dict whose `query_success` is truthy. */
  predicate Succeeded(response: Json)
  {
    response.JObj? && Truthy(GetOr(response.fields, "query_success", JBool(false)))
  }

  /** The response reports data: a dict whose `has_data` is truthy. */
  predicate ReportsAthletes(response: Json)
  {
    response.JObj? && Truthy(GetOr(response.fields, "has_data", JBool(false)))
  }

  /** The athletes a response hands to the ledger: the items of `data.list`
      when the response reports data, `data` is a dict and `list` is a list;
      none otherwise. */
  function Athletes(response: Json): seq<Json>
  {
    if !ReportsAthletes(response) then []
    else
      var r := response.fields;
      if "data" in r.vals && r.vals["data"].JObj? then
        match GetOr(r.vals["data"].fields, "list", JArr([]))
        case JArr(xs) => xs
        case _ => []
      else []
  }

  /** Counting what an entry's response says: one more successful query when
      `query_success` is truthy, and when `has_data` is truthy one more valid
      result and the athletes of `data.list` counted and saved one by one, an
      exception in a save stopping the run. */
  function Inspect(s: State, response: Json): (p: Progress)
    ensures p.s.cache == s.cache && p.s.results == s.results && p.s.stream == s.stream
    ensures p.s.tally.cachedHits == s.tally.cachedHits && p.s.tally.newQueries == s.tally.newQueries
    ensures p.s.tally.successful == s.tally.successful + (if Succeeded(response) then 1 else 0)
    ensures p.s.tally.validData == s.tally.validData + (if ReportsAthletes(response) then 1 else 0)
    ensures p.s.tally.foundAthletes == s.tally.foundAthletes + |Athletes(response)|
    ensures p.s.ledger == SaveEach(s.ledger, Athletes(response)).ledger
    ensures p.Going? <==> SaveEach(s.ledger, Athletes(response)).failure == None
  {
    if !response.JObj? then Going(s)
    else
      var r := response.fields;
      var t := if Truthy(GetOr(r, "query_success", JBool(false)))
               then s.tally.(successful := s.tally.successful + 1) else s.tally;
      if !Truthy(GetOr(r, "has_data", JBool(false))) then Going(s.(tally := t))
      else
        var t := t.(validData := t.validData + 1);
        if !("data" in r.vals && r.vals["data"].JObj?) then Going(s.(tally := t))
        else
          var athletes := GetOr(r.vals["data"].fields, "list", JArr([]));
          if !athletes.JArr? then Going(s.(tally := t))
          else
            var t := t.(foundAthletes := t.foundAthletes + |athletes.items|);
            var f := SaveEach(s.ledger, athletes.items);
            match f.failure
            case None => Going(s.(tally := t, ledger := f.ledger))
            case Some(m) => Stopped(m, s.(tally := t, ledger := f.ledger))
  }

  /** The body of the inner loop for the answer at global position `idx`: the
      entry is appended to the results and written to the stream, the hit or
      miss is counted, then its response is inspected. */
  function Record(s: State, a: Answer, idx: nat, total: nat): (p: Progress)
    ensures p.s.cache == s.cache
    ensures p.s.results == s.results + [a.entry]
    ensures p.s.stream == s.stream + [Piece(a.entry, idx, total)]
    ensures p.s.tally.cachedHits == s.tally.cachedHits + (if a.fromCache then 1 else 0)
    ensures p.s.tally.newQueries == s.tally.newQueries + (if a.fromCache then 0 else 1)
    ensures Extends(p.s.ledger.lines, s.ledger.lines) && s.ledger.known <= p.s.ledger.known
    ensures !a.entry.JObj? ==> p.Stopped? && p.message == NoGetMessage(a.entry)
    ensures p.Going? <==> a.entry.JObj? && SaveEach(s.ledger, Athletes(ResponsePart(a.entry))).failure == None
  {
    var tally := if a.fromCache then s.tally.(cachedHits := s.tally.cachedHits + 1)
                 else s.tally.(newQueries := s.tally.newQueries + 1);
    var s1 := s.(results := s.results + [a.entry], stream := s.stream + [Piece(a.entry, idx, total)],
                 tally := tally);
    if !a.entry.JObj? then Stopped(NoGetMessage(a.entry), s1)
    else Inspect(s1, GetOr(a.entry.fields, "response", JObj(Empty())))
  }

  /** Records `answers[k..]`, the first of them at global position `base + k`. */
  function RecordAll(s: State, answers: seq<Answer>, k: nat, base: nat, total: nat): (p: Progress)
    requires k <= |answers|
    ensures p.s.cache == s.cache
    ensures |s.results| <= |p.s.results| <= |s.results| + |answers| - k
    ensures p.Going? ==> |p.s.results| == |s.results| + |answers| - k
    ensures Extends(p.s.ledger.lines, s.ledger.lines) && s.ledger.known <= p.s.ledger.known
    decreases |answers| - k
  {
    if k == |answers| then Going(s)
    else match Record(s, answers[k], base + k, total)
      case Going(t) => RecordAll(t, answers, k + 1, base, total)
      case Stopped(m, t) => Stopped(m, t)
  }

  /** One batch: gather the answers for `lo .. hi-1`, then record them in order. */
  function RunBatch(s: State, ask: (Cache, string) -> Answer, ids: seq<string>, lo: nat, hi: nat): (p: Progress)
    requires lo <= hi <= |ids|
    ensures Extends(p.s.ledger.lines, s.ledger.lines) && s.ledger.known <= p.s.ledger.known
  {
    var g := Gather(s.cache, ask, ids, lo, hi);
    RecordAll(s.(cache := g.0), g.1, 0, lo, |ids|)
  }

  /** The batches `bs[k..]` one after another, until one stops. */
  function RunBatches(s: State, ask: (Cache, string) -> Answer, ids: seq<string>, bs: seq<(nat, nat)>, k: nat)
    : (p: Progress)
    requires k <= |bs|
    requires forall i :: 0 <= i < |bs| ==> bs[i].0 <= bs[i].1 <= |ids|
    ensures Extends(p.s.ledger.lines, s.ledger.lines) && s.ledger.known <= p.s.ledger.known
    decreases |bs| - k
  {
    if k == |bs| then Going(s)
    else match RunBatch(s, ask, ids, bs[k].0, bs[k].1)
      case Stopped(m, t) => Stopped(m, t)
      case Going(t) => RunBatches(t, ask, ids, bs, k + 1)
  }

  /** How a run ends: completed, with the saved cache file and the final name of
      the closed result file; or cut short by an exception, leaving the result
      file under its temporary name, unclosed, and the cache file unwritten. */
  datatype Outcome =
    | Completed(s: State, savedCache: seq<Chunk>, resultsFile: string)
    | Crashed(message: string, s: State, resultsFile: string)

  /** The result file's name while the run is going. */
  function TempName(name: string, stamp: string, start: int, end: int): string
  {
    "logs/results_" + name + "_" + stamp + "_" + IntToString(start) + "_" + IntToString(end) + "_temp.json"
  }

  /** The result file's name once the run has completed. */
  function FinalName(name: string, stamp: string, start: int, end: int, total: nat): string
  {
    "logs/results_" + name + "_" + stamp + "_" + IntToString(start) + "_" + IntToString(end) + "_"
      + IntToString(total) + ".json"
  }

  /** The state before the first batch: the stream holds the opening bracket. */
  function Initial(cache: Cache, ledger: Ledger): State
  {
    State(cache, ledger, [], [Open], Tally(0, 0, 0, 0, 0))
  }

  /** `batch_query(name, start_num, end_num)` on the prober's cache and ledger,
      with `stamp` the run's timestamp. */
  function BatchQuery(cache: Cache, ledger: Ledger, name: string, start: int, end: int,
                      stamp: string, now: string, probe: string -> Probe): (o: Outcome)
    ensures Extends(o.s.ledger.lines, ledger.lines) && ledger.known <= o.s.ledger.known
  {
    var ids := Ids(start, end);
    Conclude(Run(cache, ledger, AskFor(name, now, probe), ids), name, stamp, start, end, |ids|)
  }

  /** All the batches of the numbers `ids`, from the initial state. */
  function Run(cache: Cache, ledger: Ledger, ask: (Cache, string) -> Answer, ids: seq<string>): (p: Progress)
    ensures Extends(p.s.ledger.lines, ledger.lines) && ledger.known <= p.s.ledger.known
  {
    RunBatches(Initial(cache, ledger), ask, ids, Batches(|ids|), 0)
  }

  /** After the last batch: close the stream, save the cache and rename the
      result file; after an exception: leave everything as it is. */
  function Conclude(p: Progress, name: string, stamp: string, start: int, end: int, total: nat): (o: Outcome)
    ensures o.Completed? <==> p.Going?
    ensures o.s.cache == p.s.cache && o.s.ledger == p.s.ledger && o.s.results == p.s.results
    ensures o.s.tally == p.s.tally
    ensures o.Completed? ==>
              && o.s.stream == p.s.stream + [Close]
              && o.savedCache == SaveCache(p.s.cache)
              && o.resultsFile == FinalName(name, stamp, start, end, total)
    ensures o.Crashed? ==>
              && o.s.stream == p.s.stream && o.message == p.message
              && o.resultsFile == TempName(name, stamp, start, end)
  {
    match p
    case Going(s) =>
      Completed(s.(stream := s.stream + [Close]), SaveCache(s.cache), FinalName(name, stamp, start, end, total))
    case Stopped(m, s) => Crashed(m, s, TempName(name, stamp, start, end))
  }

  /** The batches are the consecutive slices `[100k, min(100k + 100, total))`. */
  lemma BatchesInRange(total: nat)
    ensures |Batches(total)| == (total + BatchSize - 1) / BatchSize
    ensures forall k :: 0 <= k < |Batches(total)| ==>
              && Batches(total)[k].0 == BatchSize * k
              && Batches(total)[k].1 == if BatchSize * (k + 1) < total then BatchSize * (k + 1) else total
  {
    BatchesFromShape(0, total);
  }

  lemma {:induction false} BatchesFromShape(from: nat, total: nat)
    requires from % BatchSize == 0
    ensures |BatchesFrom(from, total)| == if from >= total then 0 else (total - from + BatchSize - 1) / BatchSize
    ensures forall k :: 0 <= k < |BatchesFrom(from, total)| ==>
              && BatchesFrom(from, total)[k].0 == from + BatchSize * k
              && BatchesFrom(from, total)[k].1
                 == if from + BatchSize * (k + 1) < total then from + BatchSize * (k + 1) else total
    decreases total - from
  {
    if from < total {
      BatchesFromShape(from + BatchSize, total);
      var bs := BatchesFrom(from, total);
      forall k | 1 <= k < |bs|
        ensures bs[k].0 == from + BatchSize * k
      {
        assert bs[k] == BatchesFrom(from + BatchSize, total)[k - 1];
      }
    }
  }

  /** The numbers of a range are pairwise different. */
  lemma RangeDistinct(start: int, end: int)
    ensures Distinct(Ids(start, end))
  {
    var ids := Ids(start, end);
    forall i, j | 0 <= i < j < |ids|
      ensures ids[i] != ids[j]
    {
      var a, b := start + i, start + j;
      assert ids[i] == IntToString(a);
      assert ids[j] == IntToString(b);
      IntToStringInjective(a, b);
    }
  }

  ghost predicate Distinct(ids: seq<string>)
  {
    forall i, j :: 0 <= i < j < |ids| ==> ids[i] != ids[j]
  }

  /** The answer for a number depends on the cache only through the number's
      own key, and the `fromCache` flag says whether that key was there. */
  ghost predicate ReadsOwnKey(ask: (Cache, string) -> Answer, key: string -> string)
  {
    forall c: Cache, c': Cache, cert :: Get(c, key(cert)) == Get(c', key(cert)) ==>
      && ask(c, cert).entry == ask(c', cert).entry
      && Get(ask(c, cert).cache, key(cert)) == Get(ask(c', cert).cache, key(cert))
  }

  ghost predicate FlagsHit(ask: (Cache, string) -> Answer, key: string -> string)
  {
    forall c: Cache, cert :: ask(c, cert).fromCache == (key(cert) in c.vals)
  }

  /** The query writes at most its own key. */
  ghost predicate WritesOwnKey(ask: (Cache, string) -> Answer, key: string -> string)
  {
    forall c: Cache, cert, k :: k != key(cert) ==> Get(ask(c, cert).cache, k) == Get(c, k)
  }

  ghost predicate KeepsCanonical(ask: (Cache, string) -> Answer)
  {
    forall c: Cache, cert :: Canonical(c) ==> Canonical(ask(c, cert).cache)
  }

  /** `query_one` has all four properties. */
  lemma QueryIsLocal(name: string, now: string, probe: string -> Probe)
    ensures ReadsOwnKey(AskFor(name, now, probe), KeyFor(name)) && FlagsHit(AskFor(name, now, probe), KeyFor(name))
    ensures WritesOwnKey(AskFor(name, now, probe), KeyFor(name)) && KeepsCanonical(AskFor(name, now, probe))
  {
    var ask, key := AskFor(name, now, probe), KeyFor(name);
    forall c: Cache, c': Cache, cert | Get(c, key(cert)) == Get(c', key(cert))
      ensures ask(c, cert).entry == ask(c', cert).entry
      ensures Get(ask(c, cert).cache, key(cert)) == Get(ask(c', cert).cache, key(cert))
    {
      QueryLocal(c, c', name, cert, now, probe(cert));
    }
    forall c: Cache, cert
      ensures ask(c, cert).fromCache == (key(cert) in c.vals)
      ensures forall k :: k != key(cert) ==> Get(ask(c, cert).cache, k) == Get(c, k)
    {
      QueryLocal(c, c, name, cert, now, probe(cert));
    }
    forall c: Cache, cert | Canonical(c)
      ensures Canonical(ask(c, cert).cache)
    {
      QueryKeepsCanonical(c, name, cert, now, probe(cert));
    }
  }

  /** Distinct numbers give distinct keys. */
  lemma KeysDistinct(name: string, ids: seq<string>)
    requires Distinct(ids)
    ensures forall i, j :: 0 <= i < j < |ids| ==> KeyFor(name)(ids[i]) != KeyFor(name)(ids[j])
  {
    forall i, j | 0 <= i < j < |ids|
      ensures KeyFor(name)(ids[i]) != KeyFor(name)(ids[j])
    {
      if KeyFor(name)(ids[i]) == KeyFor(name)(ids[j]) {
        CacheKeyInjective(name, ids[i], ids[j]);
      }
    }
  }

  /** A batch over `[lo, hi)` is the batch over `[lo, m)` followed by the
      batch over `[m, hi)` on the cache the first part left. */
  lemma {:induction false} GatherSplit(c: Cache, ask: (Cache, string) -> Answer, ids: seq<string>,
                                       lo: nat, m: nat, hi: nat)
    requires lo <= m <= hi <= |ids|
    ensures var left := Gather(c, ask, ids, lo, m);
            var right := Gather(left.0, ask, ids, m, hi);
            Gather(c, ask, ids, lo, hi) == (right.0, left.1 + right.1)
    decreases m - lo
  {
    var left := Gather(c, ask, ids, lo, m);
    var right := Gather(left.0, ask, ids, m, hi);
    if lo == m {
      assert left.1 + right.1 == right.1;
    } else {
      var a := ask(c, ids[lo]);
      GatherSplit(a.cache, ask, ids, lo + 1, m, hi);
      var left' := Gather(a.cache, ask, ids, lo + 1, m);
      assert left == (left'.0, [a] + left'.1);
      assert [a] + (left'.1 + right.1) == ([a] + left'.1) + right.1;
    }
  }

  /** The `i`-th answer of a batch is that number's query against the cache
      the earlier queries of the batch left. */
  lemma GatherNth(c: Cache, ask: (Cache, string) -> Answer, ids: seq<string>, lo: nat, hi: nat, i: nat)
    requires lo + i < hi <= |ids|
    ensures Gather(c, ask, ids, lo, hi).1[i] == ask(Gather(c, ask, ids, lo, lo + i).0, ids[lo + i])
  {
    GatherSplit(c, ask, ids, lo, lo + i, hi);
  }

  /** The answers of a batch are those its queries give against `c0`, for a
      cache that agrees with `c0` on the keys of the batch. */
  lemma GatherAnswers(c: Cache, c0: Cache, ask: (Cache, string) -> Answer,
                      key: string -> string, ids: seq<string>, lo: nat, hi: nat)
    requires lo <= hi <= |ids|
    requires ReadsOwnKey(ask, key) && FlagsHit(ask, key) && WritesOwnKey(ask, key)
    requires forall i, j :: lo <= i < j < hi ==> key(ids[i]) != key(ids[j])
    requires forall j :: lo <= j < hi ==> Get(c, key(ids[j])) == Get(c0, key(ids[j]))
    ensures forall i :: 0 <= i < hi - lo ==>
              && Gather(c, ask, ids, lo, hi).1[i].entry == ask(c0, ids[lo + i]).entry
              && Gather(c, ask, ids, lo, hi).1[i].fromCache == (key(ids[lo + i]) in c0.vals)
  {
    forall i | 0 <= i < hi - lo
      ensures Gather(c, ask, ids, lo, hi).1[i].entry == ask(c0, ids[lo + i]).entry
      ensures Gather(c, ask, ids, lo, hi).1[i].fromCache == (key(ids[lo + i]) in c0.vals)
    {
      NthAnswer(c, c0, ask, key, ids, lo, hi, i);
    }
  }

  lemma NthAnswer(c: Cache, c0: Cache, ask: (Cache, string) -> Answer,
                  key: string -> string, ids: seq<string>, lo: nat, hi: nat, i: nat)
    requires lo + i < hi <= |ids|
    requires ReadsOwnKey(ask, key) && FlagsHit(ask, key) && WritesOwnKey(ask, key)
    requires forall j :: lo <= j < lo + i ==> key(ids[j]) != key(ids[lo + i])
    requires Get(c, key(ids[lo + i])) == Get(c0, key(ids[lo + i]))
    ensures Gather(c, ask, ids, lo, hi).1[i].entry == ask(c0, ids[lo + i]).entry
    ensures Gather(c, ask, ids, lo, hi).1[i].fromCache == (key(ids[lo + i]) in c0.vals)
  {
    var before := NthContext(c, ask, key, ids, lo, hi, i);
    assert Get(before, key(ids[lo + i])) == Get(c0, key(ids[lo + i]));
  }

  /** The cache the `i`-th query of a batch runs against, which still holds
      the old value of that query's key. */
  lemma NthContext(c: Cache, ask: (Cache, string) -> Answer, key: string -> string,
                   ids: seq<string>, lo: nat, hi: nat, i: nat) returns (before: Cache)
    requires lo + i < hi <= |ids| && WritesOwnKey(ask, key)
    requires forall j :: lo <= j < lo + i ==> key(ids[j]) != key(ids[lo + i])
    ensures Gather(c, ask, ids, lo, hi).1[i] == ask(before, ids[lo + i])
    ensures Get(before, key(ids[lo + i])) == Get(c, key(ids[lo + i]))
  {
    before := Gather(c, ask, ids, lo, lo + i).0;
    GatherNth(c, ask, ids, lo, hi, i);
    GatherFrame(c, ask, key, ids, lo, lo + i, key(ids[lo + i]));
  }

  /** After a batch each of its keys holds what that number's query against
      `c0` stores there. */
  lemma GatherStores(c: Cache, c0: Cache, ask: (Cache, string) -> Answer,
                     key: string -> string, ids: seq<string>, lo: nat, hi: nat)
    requires lo <= hi <= |ids|
    requires ReadsOwnKey(ask, key) && WritesOwnKey(ask, key)
    requires forall i, j :: lo <= i < j < hi ==> key(ids[i]) != key(ids[j])
    requires forall j :: lo <= j < hi ==> Get(c, key(ids[j])) == Get(c0, key(ids[j]))
    ensures forall j :: lo <= j < hi ==>
              Get(Gather(c, ask, ids, lo, hi).0, key(ids[j])) == Get(ask(c0, ids[j]).cache, key(ids[j]))
  {
    forall j | lo <= j < hi
      ensures Get(Gather(c, ask, ids, lo, hi).0, key(ids[j])) == Get(ask(c0, ids[j]).cache, key(ids[j]))
    {
      NthStored(c, c0, ask, key, ids, lo, hi, j);
    }
  }

  lemma NthStored(c: Cache, c0: Cache, ask: (Cache, string) -> Answer,
                  key: string -> string, ids: seq<string>, lo: nat, hi: nat, j: nat)
    requires lo <= j < hi <= |ids|
    requires ReadsOwnKey(ask, key) && WritesOwnKey(ask, key)
    requires forall i :: lo <= i < hi && i != j ==> key(ids[i]) != key(ids[j])
    requires Get(c, key(ids[j])) == Get(c0, key(ids[j]))
    ensures Get(Gather(c, ask, ids, lo, hi).0, key(ids[j])) == Get(ask(c0, ids[j]).cache, key(ids[j]))
  {
    var before := StoredContext(c, ask, key, ids, lo, hi, j);
    assert Get(before, key(ids[j])) == Get(c0, key(ids[j]));
  }

  /** The cache the `j`-th query of a batch runs against: it still holds the
      old value of that query's key, and what the query stores there is what
      the batch leaves there. */
  lemma StoredContext(c: Cache, ask: (Cache, string) -> Answer, key: string -> string,
                      ids: seq<string>, lo: nat, hi: nat, j: nat) returns (before: Cache)
    requires lo <= j < hi <= |ids| && WritesOwnKey(ask, key)
    requires forall i :: lo <= i < hi && i != j ==> key(ids[i]) != key(ids[j])
    ensures Get(before, key(ids[j])) == Get(c, key(ids[j]))
    ensures Get(Gather(c, ask, ids, lo, hi).0, key(ids[j])) == Get(ask(before, ids[j]).cache, key(ids[j]))
  {
    var k := key(ids[j]);
    before := Gather(c, ask, ids, lo, j).0;
    GatherSplit(c, ask, ids, lo, j, hi);
    GatherFrame(c, ask, key, ids, lo, j, k);
    var after := ask(before, ids[j]).cache;
    assert Gather(before, ask, ids, j, hi).0 == Gather(after, ask, ids, j + 1, hi).0;
    GatherFrame(after, ask, key, ids, j + 1, hi, k);
  }

  /** A batch changes no key outside its own numbers' keys. */
  lemma {:induction false} GatherFrame(c: Cache, ask: (Cache, string) -> Answer, key: string -> string,
                                       ids: seq<string>, lo: nat, hi: nat, k: string)
    requires lo <= hi <= |ids| && WritesOwnKey(ask, key)
    requires forall i :: lo <= i < hi ==> key(ids[i]) != k
    ensures Get(Gather(c, ask, ids, lo, hi).0, k) == Get(c, k)
    decreases hi - lo
  {
    if lo < hi {
      GatherFrame(ask(c, ids[lo]).cache, ask, key, ids, lo + 1, hi, k);
    }
  }

  /** A batch keeps a canonical cache canonical. */
  lemma GatherCanonical(c: Cache, ask: (Cache, string) -> Answer, ids: seq<string>, lo: nat, hi: nat)
    requires lo <= hi <= |ids| && KeepsCanonical(ask) && Canonical(c)
    ensures Canonical(Gather(c, ask, ids, lo, hi).0)
  {
    GatherKeeps(c, ask, (c': Cache) => Canonical(c'), ids, lo, hi);
  }

  /** A batch keeps every invariant that each single query keeps. */
  lemma {:induction false} GatherKeeps(c: Cache, ask: (Cache, string) -> Answer, inv: Cache -> bool,
                                       ids: seq<string>, lo: nat, hi: nat)
    requires lo <= hi <= |ids| && inv(c)
    requires forall c': Cache, cert :: inv(c') ==> inv(ask(c', cert).cache)
    ensures inv(Gather(c, ask, ids, lo, hi).0)
    decreases hi - lo
  {
    if lo < hi {
      GatherKeeps(ask(c, ids[lo]).cache, ask, inv, ids, lo + 1, hi);
    }
  }

  /** `cached_count`: how many of the numbers already have a cache entry. */
  function CachedCount(cache: Cache, key: string -> string, ids: seq<string>): (n: nat)
    ensures n <= |ids|
  {
    if ids == [] then 0
    else CachedCount(cache, key, ids[..|ids| - 1]) + (if key(ids[|ids| - 1]) in cache.vals then 1 else 0)
  }

  /** The stream elements for `rs`, the first at position 0 of `total`. */
  function Pieces(rs: seq<Json>, total: nat): (ps: seq<Chunk>)
    ensures |ps| == |rs|
  {
    seq(|rs|, i requires 0 <= i < |rs| => Piece(rs[i], i, total))
  }

  /** What holds of the run's state at every point: the entries so far are
      those their queries give against the initial cache `c0`, in number order;
      the stream is the opening bracket and one element per entry; the hit
      counter equals the number of those entries that were cached up front, and
      hits and fresh queries together count the entries. */
  ghost predicate Consistent(c0: Cache, ask: (Cache, string) -> Answer, key: string -> string,
                             ids: seq<string>, s: State)
  {
    && |s.results| <= |ids|
    && (forall i :: 0 <= i < |s.results| ==> s.results[i] == ask(c0, ids[i]).entry)
    && s.stream == [Open] + Pieces(s.results, |ids|)
    && s.tally.cachedHits == CachedCount(c0, key, ids[..|s.results|])
    && s.tally.cachedHits + s.tally.newQueries == |s.results|
  }

  /** `k` is none of the run's keys. */
  ghost predicate Foreign(key: string -> string, ids: seq<string>, k: string)
  {
    forall j :: 0 <= j < |ids| ==> key(ids[j]) != k
  }

  /** The cache after the first `n` numbers: each of their keys holds what its
      query against `c0` stores, every other key is as in `c0`, and a canonical
      `c0` has stayed canonical. */
  ghost predicate CacheAfter(c0: Cache, ask: (Cache, string) -> Answer, key: string -> string,
                             ids: seq<string>, c: Cache, n: nat)
    requires n <= |ids|
  {
    && (forall j :: 0 <= j < n ==> Get(c, key(ids[j])) == Get(ask(c0, ids[j]).cache, key(ids[j])))
    && (forall j :: n <= j < |ids| ==> Get(c, key(ids[j])) == Get(c0, key(ids[j])))
    && (forall k :: Foreign(key, ids, k) ==> Get(c, k) == Get(c0, k))
    && (Canonical(c0) ==> Canonical(c))
  }

  /** The state once the first `n` numbers are recorded. */
  ghost predicate Done(c0: Cache, ask: (Cache, string) -> Answer, key: string -> string,
                       ids: seq<string>, s: State, n: nat)
  {
    n <= |ids| && Consistent(c0, ask, key, ids, s) && |s.results| == n && CacheAfter(c0, ask, key, ids, s.cache, n)
  }

  /** Appending the next entry, its element and its hit or miss keeps the state consistent. */
  lemma AppendStep(c0: Cache, ask: (Cache, string) -> Answer, key: string -> string,
                   ids: seq<string>, s: State, t: State, a: Answer)
    requires Consistent(c0, ask, key, ids, s) && |s.results| < |ids|
    requires a.entry == ask(c0, ids[|s.results|]).entry
    requires a.fromCache == (key(ids[|s.results|]) in c0.vals)
    requires t.results == s.results + [a.entry]
    requires t.stream == s.stream + [Piece(a.entry, |s.results|, |ids|)]
    requires t.tally.cachedHits == s.tally.cachedHits + (if a.fromCache then 1 else 0)
    requires t.tally.newQueries == s.tally.newQueries + (if a.fromCache then 0 else 1)
    ensures Consistent(c0, ask, key, ids, t)
  {
    var n := |s.results|;
    assert Pieces(t.results, |ids|) == Pieces(s.results, |ids|) + [Piece(a.entry, n, |ids|)];
    assert ids[..n + 1][..n] == ids[..n];
  }

  /** Recording a batch's answers, each the one its number gets against `c0`,
      keeps the state consistent. */
  lemma {:induction false} RecordAllKeeps(c0: Cache, ask: (Cache, string) -> Answer, key: string -> string,
                                          ids: seq<string>, s: State, answers: seq<Answer>, k: nat, base: nat)
    requires k <= |answers| && base + |answers| <= |ids| && |s.results| == base + k
    requires Consistent(c0, ask, key, ids, s)
    requires forall i :: 0 <= i < |answers| ==>
               && answers[i].entry == ask(c0, ids[base + i]).entry
               && answers[i].fromCache == (key(ids[base + i]) in c0.vals)
    ensures Consistent(c0, ask, key, ids, RecordAll(s, answers, k, base, |ids|).s)
    decreases |answers| - k
  {
    if k < |answers| {
      var p := Record(s, answers[k], base + k, |ids|);
      AppendStep(c0, ask, key, ids, s, p.s, answers[k]);
      if p.Going? {
        RecordAllKeeps(c0, ask, key, ids, p.s, answers, k + 1, base);
      }
    }
  }

  /** The four locality properties of a query, and distinct keys for the numbers. */
  ghost predicate Local(ask: (Cache, string) -> Answer, key: string -> string, ids: seq<string>)
  {
    && ReadsOwnKey(ask, key) && FlagsHit(ask, key) && WritesOwnKey(ask, key) && KeepsCanonical(ask)
    && forall i, j :: 0 <= i < j < |ids| ==> key(ids[i]) != key(ids[j])
  }

  /** A batch leaves every key outside its own numbers' keys as it was. */
  lemma BatchFrame(c: Cache, ask: (Cache, string) -> Answer, key: string -> string, ids: seq<string>, lo: nat, hi: nat)
    requires lo <= hi <= |ids| && WritesOwnKey(ask, key)
    ensures forall k :: (forall i :: lo <= i < hi ==> key(ids[i]) != k) ==> Get(Gather(c, ask, ids, lo, hi).0, k) == Get(c, k)
  {
    forall k | forall i :: lo <= i < hi ==> key(ids[i]) != k
      ensures Get(Gather(c, ask, ids, lo, hi).0, k) == Get(c, k)
    {
      GatherFrame(c, ask, key, ids, lo, hi, k);
    }
  }

  /** The cache after one more batch. */
  lemma BatchCache(c0: Cache, ask: (Cache, string) -> Answer, key: string -> string, ids: seq<string>,
                   c: Cache, lo: nat, hi: nat)
    requires lo <= hi <= |ids| && Local(ask, key, ids) && CacheAfter(c0, ask, key, ids, c, lo)
    ensures CacheAfter(c0, ask, key, ids, Gather(c, ask, ids, lo, hi).0, hi)
  {
    var g := Gather(c, ask, ids, lo, hi).0;
    BatchFrame(c, ask, key, ids, lo, hi);
    GatherStores(c, c0, ask, key, ids, lo, hi);
    forall j | 0 <= j < |ids| && (j < lo || hi <= j)
      ensures Get(g, key(ids[j])) == Get(c, key(ids[j]))
    {
      forall i | lo <= i < hi
        ensures key(ids[i]) != key(ids[j])
      {
        if i < j { assert key(ids[i]) != key(ids[j]); } else { assert key(ids[j]) != key(ids[i]); }
      }
    }
    forall k | Foreign(key, ids, k)
      ensures Get(g, k) == Get(c0, k)
    {
      assert forall i :: lo <= i < hi ==> key(ids[i]) != k;
    }
    if Canonical(c0) {
      GatherCanonical(c, ask, ids, lo, hi);
    }
  }

  /** One batch, from the state after its first number's predecessors: the
      state stays consistent, the cache has taken in the whole batch, and a
      batch that is not cut short has recorded all of it. */
  lemma RunBatchKeeps(c0: Cache, ask: (Cache, string) -> Answer, key: string -> string, ids: seq<string>,
                      s: State, lo: nat, hi: nat)
    requires lo <= hi <= |ids| && Local(ask, key, ids) && Done(c0, ask, key, ids, s, lo)
    ensures Consistent(c0, ask, key, ids, RunBatch(s, ask, ids, lo, hi).s)
    ensures lo <= |RunBatch(s, ask, ids, lo, hi).s.results| <= hi
    ensures CacheAfter(c0, ask, key, ids, RunBatch(s, ask, ids, lo, hi).s.cache, hi)
    ensures RunBatch(s, ask, ids, lo, hi).Going? ==> Done(c0, ask, key, ids, RunBatch(s, ask, ids, lo, hi).s, hi)
  {
    var g := Gather(s.cache, ask, ids, lo, hi);
    GatherAnswers(s.cache, c0, ask, key, ids, lo, hi);
    RecordAllKeeps(c0, ask, key, ids, s.(cache := g.0), g.1, 0, lo);
    BatchCache(c0, ask, key, ids, s.cache, lo, hi);
  }

  /** Where batch `k` of `bs` starts; the end of the numbers past the last batch. */
  function StartOf(bs: seq<(nat, nat)>, k: nat, total: nat): nat
  {
    if k < |bs| then bs[k].0 else total
  }

  /** The batches cover `0 .. total-1` back to back, in order. */
  predicate Chained(bs: seq<(nat, nat)>, total: nat)
  {
    && StartOf(bs, 0, total) == 0
    && forall i :: 0 <= i < |bs| ==> bs[i].0 <= bs[i].1 <= total && bs[i].1 == StartOf(bs, i + 1, total)
  }

  lemma {:induction false} RunBatchesKeeps(c0: Cache, ask: (Cache, string) -> Answer, key: string -> string,
                                           ids: seq<string>, bs: seq<(nat, nat)>, s: State, k: nat)
    requires k <= |bs| && Chained(bs, |ids|) && Local(ask, key, ids)
    requires Done(c0, ask, key, ids, s, StartOf(bs, k, |ids|))
    ensures Consistent(c0, ask, key, ids, RunBatches(s, ask, ids, bs, k).s)
    ensures RunBatches(s, ask, ids, bs, k).Going? ==> Done(c0, ask, key, ids, RunBatches(s, ask, ids, bs, k).s, |ids|)
    decreases |bs| - k
  {
    if k < |bs| {
      RunBatchKeeps(c0, ask, key, ids, s, bs[k].0, bs[k].1);
      var p := RunBatch(s, ask, ids, bs[k].0, bs[k].1);
      if p.Going? {
        RunBatchesKeeps(c0, ask, key, ids, bs, p.s, k + 1);
      }
    }
  }

  lemma BatchesChained(total: nat)
    ensures Chained(Batches(total), total)
  {
    BatchesInRange(total);
    var bs := Batches(total);
    forall i | 0 <= i < |bs|
      ensures bs[i].1 == StartOf(bs, i + 1, total)
    {
      if i + 1 < |bs| {
        assert bs[i + 1].0 == BatchSize * (i + 1);
      } else {
        assert BatchSize * (i + 1) >= total;
      }
    }
  }

  lemma InitialDone(c0: Cache, ask: (Cache, string) -> Answer, key: string -> string, ids: seq<string>, l: Ledger)
    ensures Done(c0, ask, key, ids, Initial(c0, l), 0)
  {
    assert Pieces([], |ids|) == [];
    assert ids[..0] == [];
  }

  /** A run's state, whether it completed or stopped: its entries are a prefix
      of what each number's query gives against the starting cache. */
  lemma RunKeeps(c0: Cache, l: Ledger, ask: (Cache, string) -> Answer, key: string -> string, ids: seq<string>)
    requires Local(ask, key, ids)
    ensures Consistent(c0, ask, key, ids, Run(c0, l, ask, ids).s)
    ensures Run(c0, l, ask, ids).Going? ==> Done(c0, ask, key, ids, Run(c0, l, ask, ids).s, |ids|)
  {
    BatchesChained(|ids|);
    InitialDone(c0, ask, key, ids, l);
    RunBatchesKeeps(c0, ask, key, ids, Batches(|ids|), Initial(c0, l), 0);
  }

  /** The response part of an entry, as the loop reads it: `data.get("response", {})`. */
  function ResponsePart(entry: Json): Json
  {
    if entry.JObj? then GetOr(entry.fields, "response", JObj(Empty())) else JObj(Empty())
  }

  /** The athletes the responses of `results` hand to the ledger, entry after entry. */
  function FoundIn(results: seq<Json>): seq<Json>
  {
    if results == [] then []
    else FoundIn(results[..|results| - 1]) + Athletes(ResponsePart(results[|results| - 1]))
  }

  /** How many of `results` report a successful query. */
  function SuccessCount(results: seq<Json>): nat
  {
    if results == [] then 0
    else SuccessCount(results[..|results| - 1]) + (if Succeeded(ResponsePart(results[|results| - 1])) then 1 else 0)
  }

  /** How many of `results` report data. */
  function DataCount(results: seq<Json>): nat
  {
    if results == [] then 0
    else DataCount(results[..|results| - 1]) + (if ReportsAthletes(ResponsePart(results[|results| - 1])) then 1 else 0)
  }

  /** The ledger and the last three counters follow from the entries recorded:
      the ledger is `l0` with the athletes they report saved in order, and the
      counters count their successes, their data and their athletes. */
  ghost predicate Fed(l0: Ledger, s: State)
  {
    && s.ledger == SaveEach(l0, FoundIn(s.results)).ledger
    && s.tally.successful == SuccessCount(s.results)
    && s.tally.validData == DataCount(s.results)
    && s.tally.foundAthletes == |FoundIn(s.results)|
  }

  /** The same, with nothing having stopped the loop: no save failed, and
      every entry recorded is a dict. */
  ghost predicate FedClean(l0: Ledger, s: State)
  {
    && Fed(l0, s)
    && SaveEach(l0, FoundIn(s.results)).failure == None
    && forall i :: 0 <= i < |s.results| ==> s.results[i].JObj?
  }

  /** Recording one more answer saves the athletes its response reports, and
      the loop goes on exactly when nothing has stopped it. */
  lemma RecordFeeds(l0: Ledger, s: State, a: Answer, idx: nat, total: nat)
    requires FedClean(l0, s)
    ensures Fed(l0, Record(s, a, idx, total).s)
    ensures Record(s, a, idx, total).Going? <==> FedClean(l0, Record(s, a, idx, total).s)
  {
    RecordFed(l0, s, a, idx, total);
    RecordStops(l0, s, a, idx, total);
  }

  lemma RecordFed(l0: Ledger, s: State, a: Answer, idx: nat, total: nat)
    requires FedClean(l0, s)
    ensures Fed(l0, Record(s, a, idx, total).s)
    ensures Record(s, a, idx, total).Going? ==> FedClean(l0, Record(s, a, idx, total).s)
  {
    var found := Athletes(ResponsePart(a.entry));
    EntryCounts(s.results, a.entry);
    RecordSaves(s, a, idx, total);
    SaveEachAppend(l0, FoundIn(s.results), found);
  }

  /** A stop leaves a state that is not clean: the entry recorded last is not a
      dict, or saving its athletes failed. */
  lemma RecordStops(l0: Ledger, s: State, a: Answer, idx: nat, total: nat)
    requires FedClean(l0, s)
    ensures Record(s, a, idx, total).Stopped? ==> !FedClean(l0, Record(s, a, idx, total).s)
  {
    var p := Record(s, a, idx, total);
    if p.Stopped? {
      if !a.entry.JObj? {
        assert !p.s.results[|s.results|].JObj?;
      } else {
        var found := Athletes(ResponsePart(a.entry));
        EntryCounts(s.results, a.entry);
        SaveEachAppend(l0, FoundIn(s.results), found);
        assert SaveEach(l0, FoundIn(p.s.results)) == SaveEach(s.ledger, found);
      }
    }
  }

  /** The counts over the entries, one entry more. */
  lemma EntryCounts(results: seq<Json>, e: Json)
    ensures var rs := results + [e];
            var response := ResponsePart(e);
            && FoundIn(rs) == FoundIn(results) + Athletes(response)
            && SuccessCount(rs) == SuccessCount(results) + (if Succeeded(response) then 1 else 0)
            && DataCount(rs) == DataCount(results) + (if ReportsAthletes(response) then 1 else 0)
  {
    var rs := results + [e];
    assert rs[..|rs| - 1] == results;
  }

  /** Recording an answer saves and counts what its response part reports,
      and goes on exactly when no save failed. */
  lemma RecordSaves(s: State, a: Answer, idx: nat, total: nat)
    ensures var p := Record(s, a, idx, total);
            var response := ResponsePart(a.entry);
            var f := SaveEach(s.ledger, Athletes(response));
            && p.s.results == s.results + [a.entry]
            && p.s.ledger == f.ledger
            && (p.Going? ==> f.failure == None)
            && p.s.tally.successful == s.tally.successful + (if Succeeded(response) then 1 else 0)
            && p.s.tally.validData == s.tally.validData + (if ReportsAthletes(response) then 1 else 0)
            && p.s.tally.foundAthletes == s.tally.foundAthletes + |Athletes(response)|
  {
    if !a.entry.JObj? {
      var response := ResponsePart(a.entry);
      assert Athletes(response) == [] && !Succeeded(response) && !ReportsAthletes(response);
    }
  }

  lemma {:induction false} RecordAllFeeds(l0: Ledger, s: State, answers: seq<Answer>, k: nat, base: nat, total: nat)
    requires k <= |answers| && FedClean(l0, s)
    ensures Fed(l0, RecordAll(s, answers, k, base, total).s)
    ensures RecordAll(s, answers, k, base, total).Going? <==> FedClean(l0, RecordAll(s, answers, k, base, total).s)
    decreases |answers| - k
  {
    if k < |answers| {
      RecordFeeds(l0, s, answers[k], base + k, total);
      var p := Record(s, answers[k], base + k, total);
      if p.Going? {
        RecordAllFeeds(l0, p.s, answers, k + 1, base, total);
      }
    }
  }

  lemma {:induction false} RunBatchesFeeds(l0: Ledger, s: State, ask: (Cache, string) -> Answer, ids: seq<string>,
                                           bs: seq<(nat, nat)>, k: nat)
    requires k <= |bs| && FedClean(l0, s)
    requires forall i :: 0 <= i < |bs| ==> bs[i].0 <= bs[i].1 <= |ids|
    ensures Fed(l0, RunBatches(s, ask, ids, bs, k).s)
    ensures RunBatches(s, ask, ids, bs, k).Going? <==> FedClean(l0, RunBatches(s, ask, ids, bs, k).s)
    decreases |bs| - k
  {
    if k < |bs| {
      var g := Gather(s.cache, ask, ids, bs[k].0, bs[k].1);
      RecordAllFeeds(l0, s.(cache := g.0), g.1, 0, bs[k].0, |ids|);
      var p := RunBatch(s, ask, ids, bs[k].0, bs[k].1);
      if p.Going? {
        RunBatchesFeeds(l0, p.s, ask, ids, bs, k + 1);
      }
    }
  }

  /** What a run, completed or stopped, does to the ledger and the counters:
      the athletes reported by the entries recorded are saved in entry order,
      and the counters count those entries; a completed run met no failure
      while saving. */
  lemma RunLedger(cache: Cache, ledger: Ledger, name: string, start: int, end: int, stamp: string, now: string,
                  probe: string -> Probe)
    ensures var o := BatchQuery(cache, ledger, name, start, end, stamp, now, probe);
            && o.s.ledger == SaveEach(ledger, FoundIn(o.s.results)).ledger
            && o.s.tally.successful == SuccessCount(o.s.results)
            && o.s.tally.validData == DataCount(o.s.results)
            && o.s.tally.foundAthletes == |FoundIn(o.s.results)|
            && (o.Completed? <==>
                  && SaveEach(ledger, FoundIn(o.s.results)).failure == None
                  && forall i :: 0 <= i < |o.s.results| ==> o.s.results[i].JObj?)
  {
    var ids := Ids(start, end);
    var init := Initial(cache, ledger);
    assert FoundIn(init.results) == [];
    RunBatchesFeeds(ledger, init, AskFor(name, now, probe), ids, Batches(|ids|), 0);
  }

  /** A run on a ledger whose memory and file agree, finding only well-formed
      string numbers, keeps them in agreement and records no number twice. */
  lemma RunLedgerSynced(cache: Cache, ledger: Ledger, name: string, start: int, end: int, stamp: string,
                        now: string, probe: string -> Probe)
    requires Synced(ledger) && Unique(ledger.lines)
    requires var o := BatchQuery(cache, ledger, name, start, end, stamp, now, probe);
             forall i :: 0 <= i < |FoundIn(o.s.results)| ==> CertOk(FoundIn(o.s.results)[i])
    ensures var o := BatchQuery(cache, ledger, name, start, end, stamp, now, probe);
            Synced(o.s.ledger) && Unique(o.s.ledger.lines)
  {
    var o := BatchQuery(cache, ledger, name, start, end, stamp, now, probe);
    RunLedger(cache, ledger, name, start, end, stamp, now, probe);
    SaveEachSynced(ledger, FoundIn(o.s.results));
  }

  /** The queries of a range are local, with distinct keys. */
  lemma RangeLocal(name: string, now: string, probe: string -> Probe, start: int, end: int)
    ensures Local(AskFor(name, now, probe), KeyFor(name), Ids(start, end))
  {
    QueryIsLocal(name, now, probe);
    RangeDistinct(start, end);
    KeysDistinct(name, Ids(start, end));
  }

  /** The elements for every entry, closed, are the array of those entries. */
  lemma ClosedPieces(rs: seq<Json>)
    ensures [Open] + Pieces(rs, |rs|) + [Close] == Layout(rs)
  {
    assert Pieces(rs, |rs|) == ArrayFile.Body(rs);
  }

  /** An unclosed stream holds the entries written, and is not a JSON array. */
  lemma {:induction false} OpenPieces(rs: seq<Json>, total: nat)
    ensures Written([Open] + Pieces(rs, total)) == rs
    ensures Parse([Open] + Pieces(rs, total)) == None
  {
    WrittenAppend([Open], Pieces(rs, total));
    WrittenElements(Pieces(rs, total), rs);
  }

  lemma {:induction false} WrittenElements(cs: seq<Chunk>, rs: seq<Json>)
    requires |cs| == |rs| && forall i :: 0 <= i < |cs| ==> cs[i].Element? && cs[i].value == rs[i]
    ensures Written(cs) == rs
    decreases |cs|
  {
    if cs != [] {
      WrittenElements(cs[1..], rs[1..]);
    }
  }

  /** A completed run, for any local query. */
  lemma {:induction false} Concluded(c0: Cache, l: Ledger, ask: (Cache, string) -> Answer, key: string -> string,
                                     ids: seq<string>, name: string, stamp: string, start: int, end: int)
    requires Local(ask, key, ids)
    requires Conclude(Run(c0, l, ask, ids), name, stamp, start, end, |ids|).Completed?
    ensures var o := Conclude(Run(c0, l, ask, ids), name, stamp, start, end, |ids|);
            && o.resultsFile == FinalName(name, stamp, start, end, |ids|)
            && |o.s.results| == |ids|
            && (forall i :: 0 <= i < |ids| ==> o.s.results[i] == ask(c0, ids[i]).entry)
            && o.s.stream == Layout(o.s.results)
            && o.s.tally.cachedHits == CachedCount(c0, key, ids)
            && o.s.tally.cachedHits + o.s.tally.newQueries == |ids|
            && CacheAfter(c0, ask, key, ids, o.s.cache, |ids|)
            && (Canonical(c0) ==> LoadCache(ReadBack(o.savedCache)) == o.s.cache)
  {
    RunKeeps(c0, l, ask, key, ids);
    var p := Run(c0, l, ask, ids);
    assert p.Going?;
    Finished(c0, ask, key, ids, p.s);
  }

  /** The state after the last number, in terms of the result file and the saved cache. */
  lemma Finished(c0: Cache, ask: (Cache, string) -> Answer, key: string -> string, ids: seq<string>, s: State)
    requires Done(c0, ask, key, ids, s, |ids|)
    ensures [Open] + Pieces(s.results, |ids|) + [Close] == Layout(s.results)
    ensures s.tally.cachedHits == CachedCount(c0, key, ids)
    ensures Canonical(c0) ==> LoadCache(ReadBack(SaveCache(s.cache))) == s.cache
  {
    ClosedPieces(s.results);
    assert ids[..|ids|] == ids;
    if Canonical(c0) {
      SaveLoadRoundTrip(s.cache);
    }
  }

  /** A completed run: the result file, under its final name, is the closed
      array of one entry per number; the hit counter is the number of those
      numbers already cached, and hits and fresh queries add up to the range;
      no key outside the run's own has changed; and the saved cache file,
      loaded back, is the final cache when the starting cache was canonical. */
  lemma CompletedRun(cache: Cache, ledger: Ledger, name: string, start: int, end: int, stamp: string, now: string,
                     probe: string -> Probe)
    requires BatchQuery(cache, ledger, name, start, end, stamp, now, probe).Completed?
    ensures var o := BatchQuery(cache, ledger, name, start, end, stamp, now, probe);
            var ids := Ids(start, end);
            && o.resultsFile == FinalName(name, stamp, start, end, |ids|)
            && |o.s.results| == |ids|
            && o.s.stream == Layout(o.s.results)
            && o.s.tally.cachedHits == CachedCount(cache, KeyFor(name), ids)
            && o.s.tally.cachedHits + o.s.tally.newQueries == |ids|
            && (forall k :: Foreign(KeyFor(name), ids, k) ==> Get(o.s.cache, k) == Get(cache, k))
            && (Canonical(cache) ==> LoadCache(ReadBack(o.savedCache)) == o.s.cache)
  {
    RangeLocal(name, now, probe, start, end);
    Concluded(cache, ledger, AskFor(name, now, probe), KeyFor(name), Ids(start, end), name, stamp, start, end);
  }

  /** Each number of a completed run: its entry is what `query_one` gives
      against the starting cache, and its key holds what that query stores. */
  lemma CompletedNumbers(cache: Cache, ledger: Ledger, name: string, start: int, end: int, stamp: string,
                         now: string, probe: string -> Probe, i: nat)
    requires BatchQuery(cache, ledger, name, start, end, stamp, now, probe).Completed?
    requires i < |Ids(start, end)|
    ensures var o := BatchQuery(cache, ledger, name, start, end, stamp, now, probe);
            var cert := Ids(start, end)[i];
            && i < |o.s.results|
            && o.s.results[i] == QueryOne(cache, name, cert, now, probe(cert)).entry
            && Get(o.s.cache, CacheKey(name, cert)) == Get(QueryOne(cache, name, cert, now, probe(cert)).cache, CacheKey(name, cert))
  {
    var ids := Ids(start, end);
    RangeLocal(name, now, probe, start, end);
    Concluded(cache, ledger, AskFor(name, now, probe), KeyFor(name), ids, name, stamp, start, end);
    AskIsQuery(name, now, probe, cache, ids[i]);
  }

  lemma AskIsQuery(name: string, now: string, probe: string -> Probe, c: Cache, cert: string)
    ensures AskFor(name, now, probe)(c, cert) == QueryOne(c, name, cert, now, probe(cert))
    ensures KeyFor(name)(cert) == CacheKey(name, cert)
  {
  }

  /** A run cut short by an exception: the result file keeps its temporary
      name, holds the entries recorded before the failure, which are a prefix
      of what a completed run would hold, and is not a loadable JSON array. */
  lemma CrashedRun(cache: Cache, ledger: Ledger, name: string, start: int, end: int, stamp: string, now: string,
                   probe: string -> Probe)
    requires BatchQuery(cache, ledger, name, start, end, stamp, now, probe).Crashed?
    ensures var o := BatchQuery(cache, ledger, name, start, end, stamp, now, probe);
            var ids := Ids(start, end);
            && o.resultsFile == TempName(name, stamp, start, end)
            && |o.s.results| <= |ids|
            && (forall i :: 0 <= i < |o.s.results| ==> o.s.results[i] == QueryOne(cache, name, ids[i], now, probe(ids[i])).entry)
            && Written(o.s.stream) == o.s.results
            && Parse(o.s.stream) == None
  {
    var ids := Ids(start, end);
    RangeLocal(name, now, probe, start, end);
    RunKeeps(cache, ledger, AskFor(name, now, probe), KeyFor(name), ids);
    var o := BatchQuery(cache, ledger, name, start, end, stamp, now, probe);
    OpenPieces(o.s.results, |ids|);
  }

  /** What `main` does with the operator's answers: the name, the two range
      ends, and the reply to the confirmation asked for very large ranges. */
  datatype Admission = Rejected(message: string) | Declined | Launched(name: string, start: int, end: int)

  /** `confirm.lower() == 'y'`: only `y` and `Y` lower-case to `y`. */
  predicate Confirms(reply: string)
  {
    reply == "y" || reply == "Y"
  }

  /** The largest `end - start` run without asking. */
  const SilentSpan := 10001

  /** `main`'s checks before `batch_query` runs: a name that strips to nothing,
      then a range end `int()` rejects, then a reversed range are refused with
      their messages; a range of more than 10002 numbers runs only if the
      operator confirms. */
  function Admit(rawName: string, startText: string, endText: string, reply: string): (r: Admission)
    ensures Strip(rawName) == [] ==> r == Rejected("姓名不能为空!")
    ensures Strip(rawName) != [] && (ParseInt(startText).None? || ParseInt(endText).None?) ==> r == Rejected("证书号必须是数字!")
    ensures r.Launched? <==>
              && Strip(rawName) != [] && ParseInt(startText).Some? && ParseInt(endText).Some?
              && ParseInt(startText).value <= ParseInt(endText).value
              && (ParseInt(endText).value - ParseInt(startText).value > SilentSpan ==> Confirms(reply))
    ensures r.Launched? ==> r.name == Strip(rawName) && Some(r.start) == ParseInt(startText) && Some(r.end) == ParseInt(endText)
    ensures (&& Strip(rawName) != [] && ParseInt(startText).Some? && ParseInt(endText).Some?
             && ParseInt(startText).value > ParseInt(endText).value)
            ==> r == Rejected("起始号不能大于结束号!")
    ensures r.Declined? <==>
              && Strip(rawName) != [] && ParseInt(startText).Some? && ParseInt(endText).Some?
              && ParseInt(startText).value <= ParseInt(endText).value
              && ParseInt(endText).value - ParseInt(startText).value > SilentSpan && !Confirms(reply)
  {
    var name := Strip(rawName);
    if name == [] then Rejected("姓名不能为空!")
    else match (ParseInt(startText), ParseInt(endText))
      case (Some(start), Some(end)) =>
        if start > end then Rejected("起始号不能大于结束号!")
        else if end - start > SilentSpan && !Confirms(reply) then Declined
        else Launched(name, start, end)
      case _ => Rejected("证书号必须是数字!")
  }

  /** A launched run has a name that is already stripped and probes at least
      one number; more than 10002 only with the operator's consent. */
  lemma LaunchedRange(rawName: string, startText: string, endText: string, reply: string)
    requires Admit(rawName, startText, endText, reply).Launched?
    ensures var r := Admit(rawName, startText, endText, reply);
            && r.name != [] && Strip(r.name) == r.name
            && 1 <= |Ids(r.start, r.end)|
            && (|Ids(r.start, r.end)| > SilentSpan + 1 ==> Confirms(reply))
  {
    var r := Admit(rawName, startText, endText, reply);
    NoSpaceStrip(r.name);
  }
}

=== FILE: cache_store.dfy ===
/**
 The durable query cache (`history.json`): the key of a cached answer, how the
 file is read back (`load_cache`, accepting the array layout and the older
 object layout) and how it is written (`save_cache`, always the array layout).
 */
module CacheStore {
  import opened Outcomes
  import opened Dicts
  import opened JsonValue
  import opened ArrayFile

  /** The in-memory cache: cache key to the stored entry, in insertion order. */
  type Cache = Dict<Json>

  /** `get_cache_key(name, cert_no)` */
  function CacheKey(name: string, certNo: string): string
  {
    name + "_" + certNo
  }

  /** The same name with different certificate numbers gives different keys. */
  lemma CacheKeyInjective(name: string, a: string, b: string)
    requires CacheKey(name, a) == CacheKey(name, b)
    ensures a == b
  {
    assert a == (name + "_" + a)[|name| + 1..];
    assert b == (name + "_" + b)[|name| + 1..];
  }

  /** What the loader finds on disk: no file, a file `json.load` rejects, or a decoded value. */
  datatype Stored = Missing | Corrupt | Parsed(value: Json)

  /** The key a legacy array item is filed under: `f"{item['name']}_{item['cert_no']}"`,
      for dict items that have both fields; other items are skipped. */
  function KeyOf(item: Json): Option<string>
  {
    if item.JObj? && "name" in item.fields.vals && "cert_no" in item.fields.vals then
      Some(CacheKey(Str(item.fields.vals["name"]), Str(item.fields.vals["cert_no"])))
    else None
  }

  /** Every entry sits under the key its own name and number give. */
  ghost predicate Canonical(c: Cache)
  {
    forall k :: k in c.vals ==> KeyOf(c.vals[k]) == Some(k)
  }

  /** `load_cache`: an array is re-keyed item by item, an object is taken as it is,
      and a missing file, a corrupt file or any other JSON value gives `{}`. */
  function LoadCache(f: Stored): (c: Cache)
    ensures (f.Missing? || f.Corrupt?) ==> c == Empty()
    ensures f.Parsed? && !f.value.JArr? && !f.value.JObj? ==> c == Empty()
    ensures f.Parsed? && f.value.JObj? ==> c == f.value.fields
    ensures f.Parsed? && f.value.JArr? ==> forall k :: Get(c, k) == LastKeyed(f.value.items, KeyOf, k)
  {
    match f
    case Parsed(JArr(items)) => Rekey(items, KeyOf)
    case Parsed(JObj(o)) => o
    case _ => Empty()
  }

  /** `save_cache`: the cached entries in insertion order as one array, each
      element but the last followed by a comma. */
  function SaveCache(c: Cache): (cs: seq<Chunk>)
    ensures |cs| == |c.keys| + 2
    ensures cs[0] == Open && cs[|cs| - 1] == Close
    ensures forall i :: 0 <= i < |c.keys| ==>
              cs[i + 1] == Element(c.vals[c.keys[i]], i < |c.keys| - 1)
  {
    Layout(Values(c))
  }

  /** What the next run's `json.load` sees in a file written as `cs`. */
  function ReadBack(cs: seq<Chunk>): Stored
  {
    match Parse(cs)
    case Some(xs) => Parsed(JArr(xs))
    case None => Corrupt
  }

  /** Saving a canonical cache and loading the file back gives the same cache,
      entries and key order alike. */
  lemma SaveLoadRoundTrip(c: Cache)
    requires Canonical(c)
    ensures LoadCache(ReadBack(SaveCache(c))) == c
  {
    var vs := Values(c);
    ParseLayout(vs);
    assert ReadBack(SaveCache(c)) == Parsed(JArr(vs));
    ReloadValues(c);
  }

  /** Re-keying the values of a canonical cache rebuilds it. */
  lemma ReloadValues(c: Cache)
    requires Canonical(c)
    ensures Rekey(Values(c), KeyOf) == c
  {
    var vs := Values(c);
    forall i | 0 <= i < |vs|
      ensures KeyOf(vs[i]) == Some(c.keys[i])
    {
      assert vs[i] == c.vals[c.keys[i]];
    }
    RekeyDistinct(vs, KeyOf, c.keys);
    var l := Rekey(vs, KeyOf);
    forall k | k in l.vals
      ensures k in c.vals && l.vals[k] == c.vals[k]
    {
      var i := KeyIndex(l, k);
      assert c.keys[i] == k;
    }
    Extensional(l, c);
  }

  /** Every entry of a cache loaded from an array sits under its own key. */
  lemma {:induction false} LastKeyedIsFiled(items: seq<Json>, k: string)
    ensures LastKeyed(items, KeyOf, k).Some? ==> KeyOf(LastKeyed(items, KeyOf, k).value) == Some(k)
    decreases |items|
  {
    if items != [] {
      LastKeyedIsFiled(items[..|items| - 1], k);
    }
  }

  lemma LoadedArrayCanonical(items: seq<Json>)
    ensures Canonical(LoadCache(Parsed(JArr(items))))
  {
    var c := LoadCache(Parsed(JArr(items)));
    forall k | k in c.vals
      ensures KeyOf(c.vals[k]) == Some(k)
    {
      assert Get(c, k) == LastKeyed(items, KeyOf, k);
      LastKeyedIsFiled(items, k);
    }
  }
}

=== FILE: dicts.dfy ===
/**
 Python's `dict` with string keys: a finite map that also remembers the order
 in which keys were first inserted. Assigning to a present key changes its value
 and keeps its position; assigning to a new key appends it. Both the prober's
 cache and every JSON object are dicts of this kind, and the order matters
 because `save_cache` writes the cache's values in that order.
 */
module Dicts {
  import opened Outcomes

  datatype RawDict<V> = RawDict(keys: seq<string>, vals: map<string, V>)
  {
    /** Keys are listed once each, and exactly the mapped keys are listed. */
    predicate Valid() {
      && (forall i, j :: 0 <= i < j < |keys| ==> keys[i] != keys[j])
      && (forall k :: k in vals ==> k in keys)
      && (forall i :: 0 <= i < |keys| ==> keys[i] in vals)
    }
  }

  type Dict<V> = d: RawDict<V> | d.Valid() witness RawDict([], map[])

  /** `{}` */
  function Empty<V>(): (d: Dict<V>)
    ensures d.keys == [] && d.vals == map[]
  {
    RawDict([], map[])
  }

  /** `d[k] = v` */
  function Put<V>(d: Dict<V>, k: string, v: V): (r: Dict<V>)
    ensures r.vals == d.vals[k := v]
    ensures k in d.vals ==> r.keys == d.keys
    ensures k !in d.vals ==> r.keys == d.keys + [k]
  {
    if k in d.vals then RawDict(d.keys, d.vals[k := v])
    else RawDict(d.keys + [k], d.vals[k := v])
  }

  /** A literal `{a: x, b: y, c: z}` with distinct keys lists them in order
      and maps each to its value. */
  lemma ThreeKeys<V>(a: string, x: V, b: string, y: V, c: string, z: V)
    requires a != b && a != c && b != c
    ensures var d := Put(Put(Put(Empty(), a, x), b, y), c, z);
      && d.keys == [a, b, c]
      && Get(d, a) == Some(x) && Get(d, b) == Some(y) && Get(d, c) == Some(z)
  {
    var d1 := Put(Empty(), a, x);
    var d2 := Put(d1, b, y);
    assert d2.keys == [a, b];
    assert c !in d2.vals;
    assert d2.keys + [c] == [a, b, c];
  }

  /** The same for four distinct keys. */
  lemma FourKeys<V>(a: string, x: V, b: string, y: V, c: string, z: V, e: string, w: V)
    requires a != b && a != c && a != e && b != c && b != e && c != e
    ensures var d := Put(Put(Put(Put(Empty(), a, x), b, y), c, z), e, w);
      && d.keys == [a, b, c, e]
      && Get(d, a) == Some(x) && Get(d, b) == Some(y) && Get(d, c) == Some(z) && Get(d, e) == Some(w)
  {
    ThreeKeys(a, x, b, y, c, z);
    var d3 := Put(Put(Put(Empty(), a, x), b, y), c, z);
    assert e !in d3.vals;
    assert d3.keys + [e] == [a, b, c, e];
  }

  /** `d.get(k)`, None when absent. */
  function Get<V>(d: Dict<V>, k: string): Option<V>
  {
    if k in d.vals then Some(d.vals[k]) else None
  }

  /** `list(d.values())`, in insertion order. */
  function Values<V>(d: Dict<V>): (vs: seq<V>)
    ensures |vs| == |d.keys|
    ensures forall i :: 0 <= i < |vs| ==> vs[i] == d.vals[d.keys[i]]
  {
    seq(|d.keys|, i requires 0 <= i < |d.keys| => d.vals[d.keys[i]])
  }

  /** The position of a listed key. */
  lemma KeyIndex<V>(d: Dict<V>, k: string) returns (i: nat)
    requires k in d.vals
    ensures i < |d.keys| && d.keys[i] == k
  {
    i :| 0 <= i < |d.keys| && d.keys[i] == k;
  }

  /** Two dicts with the same key order and the same values are equal. */
  lemma Extensional<V>(a: Dict<V>, b: Dict<V>)
    requires a.keys == b.keys
    requires forall k :: k in a.vals ==> k in b.vals && a.vals[k] == b.vals[k]
    ensures a == b
  {
    assert a.vals.Keys == b.vals.Keys;
  }

  /** The item a search of `items` from the end finds for key `k`. */
  ghost function LastKeyed<V>(items: seq<V>, key: V -> Option<string>, k: string): Option<V>
  {
    if items == [] then None
    else if key(items[|items| - 1]) == Some(k) then Some(items[|items| - 1])
    else LastKeyed(items[..|items| - 1], key, k)
  }

  /** `for item in items: if key(item) is not None: d[key(item)] = item`, from `{}`. */
  function Rekey<V>(items: seq<V>, key: V -> Option<string>): (d: Dict<V>)
    ensures forall k :: Get(d, k) == LastKeyed(items, key, k)
  {
    if items == [] then Empty()
    else
      var prev := Rekey(items[..|items| - 1], key);
      var last := items[|items| - 1];
      match key(last)
      case None => prev
      case Some(k) => Put(prev, k, last)
  }

  /** Re-keying items whose keys are pairwise distinct lists the keys in item
      order and files each item under its own key. */
  lemma RekeyDistinct<V>(vs: seq<V>, key: V -> Option<string>, ks: seq<string>)
    requires |vs| == |ks|
    requires forall i :: 0 <= i < |vs| ==> key(vs[i]) == Some(ks[i])
    requires forall i, j :: 0 <= i < j < |ks| ==> ks[i] != ks[j]
    ensures Rekey(vs, key).keys == ks
    ensures forall i :: 0 <= i < |ks| ==> ks[i] in Rekey(vs, key).vals && Rekey(vs, key).vals[ks[i]] == vs[i]
  {
    RekeyPrefix(vs, key, ks, |vs|);
    assert vs[..|vs|] == vs && ks[..|ks|] == ks;
  }

  /** The same for the first `m` items. */
  lemma {:induction false} RekeyPrefix<V>(vs: seq<V>, key: V -> Option<string>, ks: seq<string>, m: nat)
    requires |vs| == |ks| && m <= |vs|
    requires forall i :: 0 <= i < |vs| ==> key(vs[i]) == Some(ks[i])
    requires forall i, j :: 0 <= i < j < |ks| ==> ks[i] != ks[j]
    ensures Rekey(vs[..m], key).keys == ks[..m]
    ensures forall i :: 0 <= i < m ==> ks[i] in Rekey(vs[..m], key).vals && Rekey(vs[..m], key).vals[ks[i]] == vs[i]
  {
    if m > 0 {
      RekeyPrefix(vs, key, ks, m - 1);
      assert vs[..m][..m - 1] == vs[..m - 1];
      RekeyStep(vs[..m], key, ks[m - 1]);
      AppendAt(Rekey(vs[..m - 1], key), vs, ks, m);
    }
  }

  /** Assigning the `m`-th of distinct keys to a dict that lists the ones
      before it, each with its item, lists the first `m`, each with its item. */
  lemma AppendAt<V>(prev: Dict<V>, vs: seq<V>, ks: seq<string>, m: nat)
    requires |vs| == |ks| && 0 < m <= |ks|
    requires forall i, j :: 0 <= i < j < |ks| ==> ks[i] != ks[j]
    requires prev.keys == ks[..m - 1]
    requires forall i :: 0 <= i < m - 1 ==> ks[i] in prev.vals && prev.vals[ks[i]] == vs[i]
    ensures Put(prev, ks[m - 1], vs[m - 1]).keys == ks[..m]
    ensures forall i :: 0 <= i < m ==>
              ks[i] in Put(prev, ks[m - 1], vs[m - 1]).vals && Put(prev, ks[m - 1], vs[m - 1]).vals[ks[i]] == vs[i]
  {
    NewLastKey(prev, ks[..m]);
    assert ks[..m][..m - 1] == ks[..m - 1];
    assert ks[..m - 1] + [ks[m - 1]] == ks[..m];
  }

  /** Re-keying one more item whose key is `k` assigns it to `k`. */
  lemma RekeyStep<V>(vs: seq<V>, key: V -> Option<string>, k: string)
    requires vs != [] && key(vs[|vs| - 1]) == Some(k)
    ensures Rekey(vs, key) == Put(Rekey(vs[..|vs| - 1], key), k, vs[|vs| - 1])
  {
  }

  /** A key that differs from every earlier one is not yet in a dict listing those. */
  lemma NewLastKey<V>(prev: Dict<V>, ks: seq<string>)
    requires |ks| > 0
    requires forall i :: 0 <= i < |ks| - 1 ==> ks[i] != ks[|ks| - 1]
    requires prev.keys == ks[..|ks| - 1]
    ensures ks[|ks| - 1] !in prev.vals
  {
    forall i | 0 <= i < |prev.keys|
      ensures prev.keys[i] != ks[|ks| - 1]
    {
      assert prev.keys[i] == ks[i];
    }
  }
}

=== FILE: json.dfy ===
/**
 Decoded JSON values as the Python code sees them after `json.loads`, together
 with the few Python operations the prober applies to them: `dict.get` with a
 default, `==` against an int literal, truthiness, `type(v).__name__`, and the
 `str()` that f-strings use. Numbers are integers only.
 */
module JsonValue {
  import opened Outcomes
  import opened Text
  import opened Dicts

  datatype Json =
    | JNull
    | JBool(b: bool)
    | JInt(n: int)
    | JStr(s: string)
    | JArr(items: seq<Json>)
    | JObj(fields: Dict<Json>)

  /** `o.get(k, default)` */
  function GetOr(o: Dict<Json>, k: string, default: Json): Json
  {
    if k in o.vals then o.vals[k] else default
  }

  /** Python's `v == n` for an int literal `n`; `bool` is a subclass of `int`,
      so `False == 0` and `True == 1` hold. */
  predicate EqInt(v: Json, n: int)
  {
    || (v.JInt? && v.n == n)
    || (v.JBool? && (if v.b then 1 else 0) == n)
  }

  /** Python truthiness: `None`, `False`, `0`, `""`, `[]` and `{}` are false. */
  predicate Truthy(v: Json)
  {
    match v
    case JNull => false
    case JBool(b) => b
    case JInt(n) => n != 0
    case JStr(s) => s != []
    case JArr(items) => items != []
    case JObj(o) => o.keys != []
  }

  /** `type(v).__name__`, as it appears in Python's exception messages. */
  function TypeName(v: Json): string
  {
    match v
    case JNull => "NoneType"
    case JBool(_) => "bool"
    case JInt(_) => "int"
    case JStr(_) => "str"
    case JArr(_) => "list"
    case JObj(_) => "dict"
  }

  /** `str(v)`, which is also what `f"{v}"` inserts. */
  function Str(v: Json): string
  {
    if v.JStr? then v.s else Repr(v)
  }

  /** `repr(v)`. Strings are quoted with single quotes and not escaped. */
  function Repr(v: Json): string
  {
    match v
    case JNull => "None"
    case JBool(b) => if b then "True" else "False"
    case JInt(n) => IntToString(n)
    case JStr(s) => "'" + s + "'"
    case JArr(items) =>
      "[" + Join(", ", seq(|items|, i requires 0 <= i < |items| => Repr(items[i]))) + "]"
    case JObj(o) =>
      "{" + Join(", ", seq(|o.keys|, i requires 0 <= i < |o.keys| =>
                           "'" + o.keys[i] + "': " + Repr(o.vals[o.keys[i]]))) + "}"
  }

  /** The message of the AttributeError raised by `v.get(...)` on a non-dict. */
  function NoGetMessage(v: Json): string
  {
    "'" + TypeName(v) + "' object has no attribute 'get'"
  }
}

=== FILE: ledger.dfy ===
/**
 The certificate ledger `certificates.txt`: a header, then one line per
 certificate found, `证书编号: <no> | <name> - <rank> - <item>`. It is read
 back at start-up (`load_found_certificates`) to remember which numbers were
 already written, and appended to (`save_found_certificate`) as athletes are
 found. The file is modelled as its sequence of lines, without the newlines.
 */
module Ledger {
  import opened Outcomes
  import opened Text
  import opened Dicts
  import opened JsonValue

  /** The label that opens every certificate line. */
  const Marker := "证书编号:"

  const Title := "查询到的等级证书编号"

  /** The id one line of the ledger records: the line is stripped, and a line
      that is blank, starts with `===` or does not start with the label records
      nothing; otherwise the text before the first `|`, with every label removed
      and stripped again, is the id when it is not empty. */
  function ParseLine(line: string): (r: Option<string>)
    ensures r.Some? ==> StartsWith(Strip(line), Marker) && !StartsWith(Strip(line), "===")
    ensures r.Some? ==> r.value != [] && Trimmed(r.value) && '|' !in r.value
  {
    var l := Strip(line);
    if l == [] || StartsWith(l, "===") || !StartsWith(l, Marker) then None
    else
      var id := Strip(RemoveAll(BeforeFirst(l, '|'), Marker));
      if id == [] then None else Some(id)
  }

  /** `load_found_certificates` over the lines read from the file. A missing
      file reads as no lines; a file that fails to decode part-way yields the
      lines decoded before the failure. */
  function LoadFound(lines: seq<string>): set<string>
  {
    IdsIn(lines, ParseLine)
  }

  /** The ids loaded are exactly those some line of the file records. */
  lemma LoadFoundSpec(lines: seq<string>, id: string)
    ensures id in LoadFound(lines) <==> exists i :: 0 <= i < |lines| && ParseLine(lines[i]) == Some(id)
  {
    IdsInSpec(lines, ParseLine, id);
  }

  /** The ids `parse` finds in `lines`, collected line by line. */
  function IdsIn(lines: seq<string>, parse: string -> Option<string>): set<string>
  {
    if lines == [] then {}
    else
      var prev := IdsIn(lines[..|lines| - 1], parse);
      match parse(lines[|lines| - 1])
      case None => prev
      case Some(id) => prev + {id}
  }

  /** Some line records `id`. */
  ghost predicate Recorded(lines: seq<string>, parse: string -> Option<string>, id: string)
  {
    exists i :: 0 <= i < |lines| && parse(lines[i]) == Some(id)
  }

  /** The loader collects exactly the ids the lines record. */
  lemma {:induction false} IdsInSpec(lines: seq<string>, parse: string -> Option<string>, id: string)
    ensures id in IdsIn(lines, parse) <==> Recorded(lines, parse, id)
    decreases |lines|
  {
    if lines != [] {
      var init := lines[..|lines| - 1];
      IdsInSpec(init, parse, id);
      if Recorded(init, parse, id) {
        var i :| 0 <= i < |init| && parse(init[i]) == Some(id);
        assert lines[i] == init[i];
      }
      if Recorded(lines, parse, id) && parse(lines[|lines| - 1]) != Some(id) {
        var i :| 0 <= i < |lines| && parse(lines[i]) == Some(id);
        assert init[i] == lines[i];
      }
    }
  }

  /** Loading a file and loading its two parts agree. */
  lemma {:induction false} IdsInAppend(a: seq<string>, b: seq<string>, parse: string -> Option<string>)
    ensures IdsIn(a + b, parse) == IdsIn(a, parse) + IdsIn(b, parse)
    decreases |b|
  {
    if b == [] {
      assert a + b == a;
    } else {
      var ab := a + b;
      assert ab[..|ab| - 1] == a + b[..|b| - 1];
      assert ab[|ab| - 1] == b[|b| - 1];
      IdsInAppend(a, b[..|b| - 1], parse);
    }
  }

  /** Lines none of which records an id load as nothing. */
  lemma {:induction false} IdsInSilent(lines: seq<string>, parse: string -> Option<string>)
    requires forall i :: 0 <= i < |lines| ==> parse(lines[i]) == None
    ensures IdsIn(lines, parse) == {}
    decreases |lines|
  {
    if lines != [] {
      IdsInSilent(lines[..|lines| - 1], parse);
    }
  }

  /** The three header lines and the blank line after them. */
  function Header(): seq<string>
  {
    [Repeat('=', 60), Title, Repeat('=', 60), ""]
  }

  /** The line written for an athlete whose number is `cert`; missing fields
      read as `未知`. */
  function EntryLine(cert: Json, info: Dict<Json>): string
  {
    var unknown := JStr("未知");
    Marker + " " + Str(cert) + " | " + Str(GetOr(info, "athleteRealName", unknown))
      + " - " + Str(GetOr(info, "rankTitle", unknown)) + " - " + Str(GetOr(info, "item", unknown))
  }

  /** The numbers remembered in memory, and the lines of the file. */
  datatype Ledger = Ledger(known: set<Json>, lines: seq<string>)

  /** Values a Python set can hold. */
  predicate Hashable(v: Json)
  {
    v.JNull? || v.JBool? || v.JInt? || v.JStr?
  }

  /** The representative of `v` under Python equality: `True == 1` and
      `False == 0`, so a bool and the matching int are the same set member. */
  function HashKey(v: Json): (k: Json)
    ensures !k.JBool?
    ensures EqInt(v, 0) ==> k == JInt(0)
    ensures EqInt(v, 1) ==> k == JInt(1)
    ensures !v.JBool? ==> k == v
  {
    if v.JBool? then JInt(if v.b then 1 else 0) else v
  }

  /** The ledger at start-up: the file's lines and the ids they record. */
  function Open(lines: seq<string>): (l: Ledger)
    ensures Synced(l)
  {
    Ledger(set id | id in LoadFound(lines) :: JStr(id), lines)
  }

  /** `save_found_certificate(athlete_info)`: a missing or falsy number, or one
      already known, changes nothing; otherwise the number is remembered and its
      line appended, after the header when the file is empty. */
  function SaveFound(l: Ledger, athlete: Json): (r: Result<Ledger>)
    ensures !athlete.JObj? ==> r == Raise(NoGetMessage(athlete))
    ensures athlete.JObj? ==>
              var cert := GetOr(athlete.fields, "certificateNo", JStr(""));
              && (!Truthy(cert) ==> r == Ok(l))
              && (Truthy(cert) && !Hashable(cert) ==> r.Raise?)
              && (Truthy(cert) && Hashable(cert) && HashKey(cert) in l.known ==> r == Ok(l))
              && (Truthy(cert) && Hashable(cert) && HashKey(cert) !in l.known ==>
                    r.Ok? && r.value.lines != l.lines)
    ensures r.Ok? ==> l.known <= r.value.known && Extends(r.value.lines, l.lines)
    ensures r.Ok? && r.value.lines != l.lines ==>
              && var cert := GetOr(athlete.fields, "certificateNo", JStr(""));
              && HashKey(cert) !in l.known
              && r.value.known == l.known + {HashKey(cert)}
              && r.value.lines == l.lines + (if l.lines == [] then Header() else [])
                                          + [EntryLine(cert, athlete.fields)]
    ensures r.Ok? && r.value.lines == l.lines ==> r.value.known == l.known
  {
    if !athlete.JObj? then Raise(NoGetMessage(athlete))
    else
      var info := athlete.fields;
      var cert := GetOr(info, "certificateNo", JStr(""));
      if !Truthy(cert) then Ok(l)
      else if !Hashable(cert) then Raise("unhashable type: '" + TypeName(cert) + "'")
      else if HashKey(cert) in l.known then Ok(l)
      else
        var head := if l.lines == [] then Header() else [];
        Ok(Ledger(l.known + {HashKey(cert)}, l.lines + head + [EntryLine(cert, info)]))
  }

  /** The ledger after a run of saves, and the message of the exception that
      cut the run short, if any. */
  datatype Filed = Filed(ledger: Ledger, failure: Option<string>)

  /** `for athlete in athletes: self.save_found_certificate(athlete)`; an
      exception stops the loop with the saves made so far in place. */
  function SaveEach(l: Ledger, athletes: seq<Json>): (r: Filed)
    ensures Extends(r.ledger.lines, l.lines) && l.known <= r.ledger.known
    ensures r.failure == None ==>
              forall i :: 0 <= i < |athletes| ==>
                && athletes[i].JObj?
                && var cert := GetOr(athletes[i].fields, "certificateNo", JStr(""));
                   Truthy(cert) ==> Hashable(cert) && HashKey(cert) in r.ledger.known
    decreases |athletes|
  {
    if athletes == [] then Filed(l, None)
    else match SaveFound(l, athletes[0])
      case Raise(m) => Filed(l, Some(m))
      case Ok(l1) => SaveEach(l1, athletes[1..])
  }

  /** Saving a run of athletes, then another, is saving them all in one go;
      a failure in the first run skips the second. */
  lemma {:induction false} SaveEachAppend(l: Ledger, a: seq<Json>, b: seq<Json>)
    ensures var f := SaveEach(l, a);
            SaveEach(l, a + b) == if f.failure.Some? then f else SaveEach(f.ledger, b)
    decreases |a|
  {
    if a == [] {
      assert a + b == b;
    } else {
      assert (a + b)[0] == a[0] && (a + b)[1..] == a[1..] + b;
      match SaveFound(l, a[0])
      case Raise(_) =>
      case Ok(l1) => SaveEachAppend(l1, a[1..], b);
    }
  }

  /** Well-formed numbers never make the loop fail, and the memory and the file
      stay in step through it. */
  lemma {:induction false} SaveEachSynced(l: Ledger, athletes: seq<Json>)
    requires Synced(l) && Unique(l.lines)
    requires forall i :: 0 <= i < |athletes| ==> CertOk(athletes[i])
    ensures SaveEach(l, athletes).failure == None
    ensures Synced(SaveEach(l, athletes).ledger) && Unique(SaveEach(l, athletes).ledger.lines)
    decreases |athletes|
  {
    if athletes != [] {
      SaveKeepsSynced(l, athletes[0]);
      SaveEachSynced(SaveFound(l, athletes[0]).value, athletes[1..]);
    }
  }

  /** `a` extends `b`: the file is only ever appended to. */
  predicate Extends(a: seq<string>, b: seq<string>)
  {
    |b| <= |a| && a[..|b|] == b
  }

  /** What the memory holds is exactly what the file would give back. */
  ghost predicate Synced(l: Ledger)
  {
    forall v :: v in l.known <==> v.JStr? && v.s in LoadFound(l.lines)
  }

  /** No id is recorded on two lines. */
  ghost predicate Unique(lines: seq<string>)
  {
    forall i, j :: 0 <= i < j < |lines| && ParseLine(lines[i]).Some? ==> ParseLine(lines[j]) != ParseLine(lines[i])
  }

  /** An id the line format can carry: non-empty, already stripped, with no `|`
      and no label inside it. */
  ghost predicate WellFormedId(id: string)
  {
    id != [] && Trimmed(id) && '|' !in id && !Contains(id, Marker)
  }

  /** An athlete record whose number, when it has a truthy one, is a well-formed string id. */
  ghost predicate CertOk(athlete: Json)
  {
    && athlete.JObj?
    && var cert := GetOr(athlete.fields, "certificateNo", JStr(""));
       Truthy(cert) ==> cert.JStr? && WellFormedId(cert.s)
  }

  /** No header line records an id, so the header loads as nothing. */
  lemma HeaderSilent()
    ensures forall i :: 0 <= i < |Header()| ==> ParseLine(Header()[i]) == None
    ensures LoadFound(Header()) == {}
  {
    var h := Header();
    forall i | 0 <= i < |h|
      ensures ParseLine(h[i]) == None
    {
      if i == 0 || i == 2 {
        RuleSilent(60);
      } else if i == 1 {
        TitleSilent();
      } else {
        assert h[i] == "";
      }
    }
    IdsInSilent(h, ParseLine);
  }

  /** The title line records nothing. */
  lemma TitleSilent()
    ensures ParseLine(Title) == None
  {
    NoSpaceStrip(Title);
    assert Title[0] != Marker[0];
  }

  /** A rule of `=` signs records nothing. */
  lemma RuleSilent(n: nat)
    requires n >= 3
    ensures ParseLine(Repeat('=', n)) == None
  {
    var rule := Repeat('=', n);
    NoSpaceStrip(rule);
    assert rule[..3] == "===";
  }

  /** The line written for a well-formed id reads back as that id. */
  lemma EntryLineRoundTrip(id: string, info: Dict<Json>)
    requires WellFormedId(id)
    ensures ParseLine(EntryLine(JStr(id), info)) == Some(id)
  {
    var unknown := JStr("未知");
    var h := Marker + " " + id + " |";
    var t := " " + Str(GetOr(info, "athleteRealName", unknown))
      + " - " + Str(GetOr(info, "rankTitle", unknown)) + " - " + Str(GetOr(info, "item", unknown));
    assert EntryLine(JStr(id), info) == h + t;
    StripKeepsHead(h, t);
    ParseHeaded(EntryLine(JStr(id), info), id);
  }

  /** A line whose stripped text opens with the label, the id and the bar records the id. */
  lemma ParseHeaded(line: string, id: string)
    requires WellFormedId(id)
    requires StartsWith(Strip(line), Marker + " " + id + " |")
    ensures ParseLine(line) == Some(id)
  {
    var l := Strip(line);
    var pad := " " + id + " ";
    var p := Marker + pad;
    var h := Marker + " " + id + " |";
    assert h == p + ['|'];
    assert l[0] == Marker[0];
    assert !StartsWith(l, "===");
    assert StartsWith(l, Marker) by { assert l[..|Marker|] == h[..|Marker|]; }
    assert '|' !in p;
    BeforeFirstPrefix(l, p, '|');
    assert RemoveAll(p, Marker) == RemoveAll(pad, Marker) by {
      assert p[..|Marker|] == Marker;
      assert p[|Marker|..] == pad;
    }
    PaddedAbsent(id);
    RemoveAllAbsent(pad, Marker);
    StripPadded(" ", id, " ");
  }

  /** The label cannot straddle the padding around an id that lacks it. */
  lemma PaddedAbsent(id: string)
    requires !Contains(id, Marker)
    ensures !Contains(" " + id + " ", Marker)
  {
    var s := " " + id + " ";
    forall i | 0 <= i <= |s| - |Marker|
      ensures !OccursAt(s, Marker, i)
    {
      if i == 0 {
        assert s[0] != Marker[0];
      } else if i + |Marker| == |s| {
        assert s[|s| - 1] != Marker[|Marker| - 1];
      } else {
        assert s[i..i + |Marker|] == id[i - 1..i - 1 + |Marker|];
        assert !OccursAt(id, Marker, i - 1);
      }
    }
  }

  /** Saving an athlete keeps the memory and the file in step and never records
      an id twice, as long as certificate numbers are well-formed strings. */
  lemma SaveKeepsSynced(l: Ledger, athlete: Json)
    requires Synced(l) && Unique(l.lines) && CertOk(athlete)
    ensures SaveFound(l, athlete).Ok?
    ensures Synced(SaveFound(l, athlete).value) && Unique(SaveFound(l, athlete).value.lines)
  {
    var r := SaveFound(l, athlete).value;
    if r.lines != l.lines {
      var cert := GetOr(athlete.fields, "certificateNo", JStr(""));
      var id := cert.s;
      var line := EntryLine(cert, athlete.fields);
      var head := if l.lines == [] then Header() else [];
      assert r.lines == l.lines + head + [line];
      EntryLineRoundTrip(id, athlete.fields);
      HeaderSilent();
      assert forall i :: 0 <= i < |head| ==> ParseLine(head[i]) == None;
      IdsInSilent(head, ParseLine);
      AppendedLoad(l.lines, head, line, id);
      assert id !in LoadFound(l.lines);
      IdsInSpec(l.lines, ParseLine, id);
      UniqueAppend(l.lines, head, line, id);
    }
  }

  lemma AppendedLoad(lines: seq<string>, head: seq<string>, line: string, id: string)
    requires LoadFound(head) == {} && ParseLine(line) == Some(id)
    ensures LoadFound(lines + head + [line]) == LoadFound(lines) + {id}
  {
    assert [line][..0] == [];
    IdsInAppend(lines, head, ParseLine);
    IdsInAppend(lines + head, [line], ParseLine);
  }

  lemma UniqueAppend(lines: seq<string>, head: seq<string>, line: string, id: string)
    requires Unique(lines) && ParseLine(line) == Some(id)
    requires forall i :: 0 <= i < |head| ==> ParseLine(head[i]) == None
    requires !Recorded(lines, ParseLine, id)
    ensures Unique(lines + head + [line])
  {
    var all := lines + head + [line];
    forall k | 0 <= k < |lines| + |head|
      ensures ParseLine(all[k]) != Some(id)
    {
      if k < |lines| {
        assert all[k] == lines[k];
      } else {
        assert all[k] == head[k - |lines|];
      }
    }
    forall i, j | 0 <= i < j < |all| && ParseLine(all[i]).Some?
      ensures ParseLine(all[j]) != ParseLine(all[i])
    {
      if j < |lines| {
        assert all[i] == lines[i] && all[j] == lines[j];
      } else if j < |lines| + |head| {
        assert all[j] == head[j - |lines|];
      } else {
        assert all[j] == line;
      }
    }
  }
}

=== FILE: outcomes.dfy ===
/**
 The two shapes of partial result used throughout the model: an optional value,
 and a value-or-Python-exception, where the exception carries the text `str(e)`
 that the source would record or print.
 */
module Outcomes {

  datatype Option<+T> = None | Some(value: T)

  datatype Result<+T> = Ok(value: T) | Raise(message: string)
}

=== FILE: pages.dfy ===
/**
 `test_rank_search_api(name, fetch_all)`: look an athlete up by name in the
 rank search, page by page. The first page decides whether there is anything to
 fetch and how many records there are; the remaining pages are guessed from that
 count at six records a page, fetched concurrently, filtered, and merged in
 ascending page order until the count is reached. `fetch_page` is a parameter
 here: a map from page number to what the request gives.
 */
module RankSearch {
  import opened Outcomes
  import opened Text
  import opened Dicts
  import opened JsonValue

  /** What `fetch_page(n)` gives: a `requests` failure (connection, time-out,
      or a body `response.json()` cannot decode), or the decoded body. */
  datatype Fetched = Failed(message: string) | Got(body: Json)

  /** What the search returns: `None`, the list of records, or an exception
      that escapes it (only `RequestException` is caught around the whole). */
  datatype Found = Nothing | Records(items: seq<Json>) | Raised(message: string)

  /** The records a page is assumed to hold when estimating the page count. */
  const PageGuess := 6

  /** `int(v)` on a decoded JSON value. */
  function ToInt(v: Json): Result<int>
  {
    match v
    case JInt(n) => Ok(n)
    case JBool(b) => Ok(if b then 1 else 0)
    case JStr(s) =>
      (match ParseInt(s)
       case Some(n) => Ok(n)
       case None => Raise("invalid literal for int() with base 10: " + Repr(v)))
    case _ => Raise("int() argument must be a string, a bytes-like object or a real number, not '" + TypeName(v) + "'")
  }

  /** A count the server sends as text or as a number reads back as that number;
      `null`, a list or a dict is a TypeError. */
  lemma ToIntReads(n: int)
    ensures ToInt(JInt(n)) == Ok(n) && ToInt(JStr(IntToString(n))) == Ok(n)
    ensures forall v: Json :: v.JNull? || v.JArr? || v.JObj? ==> ToInt(v).Raise?
  {
    IntRoundTrip(n);
  }

  /** What `list.extend(v)` appends, and what `len(v)` counts: a list's items,
      a string's characters, a dict's keys; other values have neither. */
  function Elements(v: Json): (r: Option<seq<Json>>)
    ensures r.Some? <==> v.JArr? || v.JStr? || v.JObj?
    ensures v.JArr? ==> r == Some(v.items)
    ensures v.JStr? ==> |r.value| == |v.s|
    ensures v.JObj? ==> |r.value| == |v.fields.keys|
  {
    match v
    case JArr(items) => Some(items)
    case JStr(s) => Some(seq(|s|, i requires 0 <= i < |s| => JStr([s[i]])))
    case JObj(o) => Some(seq(|o.keys|, i requires 0 <= i < |o.keys| => JStr(o.keys[i])))
    case _ => None
  }

  /** For a value that has a length, `not v` holds exactly when it is empty. */
  lemma ElementsTruthy(v: Json)
    requires Elements(v).Some?
    ensures Truthy(v) <==> Elements(v).value != []
  {
  }

  /** The first page is accepted: `response == 1` and `error == 0`. */
  predicate Accepted(o: Dict<Json>)
  {
    EqInt(GetOr(o, "response", JNull), 1) && EqInt(GetOr(o, "error", JNull), 0)
  }

  /** The outcome of the first page: stop with the search's result, or go on
      with the record count and page 1's records. */
  datatype Start = Stop(result: Found) | Proceed(total: int, first: seq<Json>)

  /** The first page, up to `all_athletes.extend(list_data)`. */
  function Opening(f: Fetched): (r: Start)
    ensures r.Stop? ==> !r.result.Records?
    ensures r == Stop(Nothing) <==>
              f.Failed? || (f.body.JObj? && (!Accepted(f.body.fields) || "data" !in f.body.fields.vals))
    ensures r.Proceed? <==>
              && f.Got? && f.body.JObj? && Accepted(f.body.fields) && "data" in f.body.fields.vals
              && f.body.fields.vals["data"].JObj?
              && ToInt(GetOr(f.body.fields.vals["data"].fields, "total", JInt(0))).Ok?
              && Elements(GetOr(f.body.fields.vals["data"].fields, "list_data", JArr([]))).Some?
    ensures r.Proceed? ==>
              && ToInt(GetOr(f.body.fields.vals["data"].fields, "total", JInt(0))) == Ok(r.total)
              && Elements(GetOr(f.body.fields.vals["data"].fields, "list_data", JArr([]))) == Some(r.first)
  {
    match f
    case Failed(_) => Stop(Nothing)
    case Got(j) =>
      if !j.JObj? then Stop(Raised(NoGetMessage(j)))
      else if !Accepted(j.fields) || "data" !in j.fields.vals then Stop(Nothing)
      else
        var data := j.fields.vals["data"];
        if !data.JObj? then Stop(Raised(NoGetMessage(data)))
        else match ToInt(GetOr(data.fields, "total", JInt(0)))
          case Raise(m) => Stop(Raised(m))
          case Ok(total) =>
            var listData := GetOr(data.fields, "list_data", JArr([]));
            match Elements(listData)
            case None => Stop(Raised("object of type '" + TypeName(listData) + "' has no len()"))
            case Some(first) => Proceed(total, first)
  }

  /** `estimated_pages = (total_records + 5) // 6`; Dafny's `/` agrees with
      Python's `//` for a positive divisor. */
  function Estimated(total: int): int
  {
    (total + PageGuess - 1) / PageGuess
  }

  /** `list(range(2, estimated_pages + 1))` */
  function Remaining(total: int): (ps: seq<int>)
    ensures total <= PageGuess ==> ps == []
    ensures forall i :: 0 <= i < |ps| ==> ps[i] == i + 2
    ensures total > 0 ==> PageGuess * |ps| < total <= PageGuess * (|ps| + 1)
  {
    var est := Estimated(total);
    if est < 2 then [] else seq(est - 1, i => i + 2)
  }

  /** What a later page contributes: its `list_data`, kept only for a dict
      reply with `response == 1`, a dict under `data`, and a non-empty
      `list_data`. `error` is not looked at. A failed fetch, and a reply on
      which these checks raise, is dropped. */
  function PagePayload(f: Fetched): (r: Option<Json>)
    ensures r.Some? <==>
              && f.Got? && f.body.JObj? && EqInt(GetOr(f.body.fields, "response", JNull), 1)
              && "data" in f.body.fields.vals && f.body.fields.vals["data"].JObj?
              && Truthy(GetOr(f.body.fields.vals["data"].fields, "list_data", JArr([])))
    ensures r.Some? ==> r.value == GetOr(f.body.fields.vals["data"].fields, "list_data", JArr([]))
  {
    if f.Failed? || !f.body.JObj? then None
    else
      var o := f.body.fields;
      if !EqInt(GetOr(o, "response", JNull), 1) || "data" !in o.vals || !o.vals["data"].JObj? then None
      else
        var pd := GetOr(o.vals["data"].fields, "list_data", JArr([]));
        if Truthy(pd) then Some(pd) else None
  }

  /** Unlike the first page, a later page is kept whatever its `error` says. */
  lemma PageErrorIgnored(o: Dict<Json>, e: Json)
    requires "error" !in o.vals
    ensures PagePayload(Got(JObj(Put(o, "error", e)))) == PagePayload(Got(JObj(o)))
  {
    var o' := Put(o, "error", e);
    assert GetOr(o', "response", JNull) == GetOr(o, "response", JNull);
    assert ("data" in o'.vals) == ("data" in o.vals);
    if "data" in o.vals {
      assert o'.vals["data"] == o.vals["data"];
    }
  }

  /** `page_results`, filled in as the requests complete in `order`. */
  function Collect(fetch: int -> Fetched, order: seq<int>): (m: map<int, Json>)
    ensures forall p :: p in m ==> p in order && PagePayload(fetch(p)) == Some(m[p])
  {
    if order == [] then map[]
    else
      var m := Collect(fetch, order[..|order| - 1]);
      var p := order[|order| - 1];
      match PagePayload(fetch(p))
      case None => m
      case Some(pd) => m[p := pd]
  }

  /** A page is in `page_results` exactly when it was requested and its reply
      was kept, and then it holds that reply's `list_data`. */
  lemma {:induction false} CollectSpec(fetch: int -> Fetched, order: seq<int>, p: int)
    ensures p in Collect(fetch, order) <==> p in order && PagePayload(fetch(p)).Some?
    ensures p in Collect(fetch, order) ==> Collect(fetch, order)[p] == PagePayload(fetch(p)).value
    decreases |order|
  {
    if p in order && PagePayload(fetch(p)).Some? && p != order[|order| - 1] {
      var init := order[..|order| - 1];
      var i :| 0 <= i < |order| && order[i] == p;
      assert init[i] == p;
      CollectSpec(fetch, init, p);
    }
  }

  /** The order in which the requests complete does not matter. */
  lemma CompletionOrderIrrelevant(fetch: int -> Fetched, a: seq<int>, b: seq<int>)
    requires forall p :: p in a <==> p in b
    ensures Collect(fetch, a) == Collect(fetch, b)
  {
    forall p
      ensures (p in Collect(fetch, a)) == (p in Collect(fetch, b))
      ensures p in Collect(fetch, a) ==> Collect(fetch, a)[p] == Collect(fetch, b)[p]
    {
      CollectSpec(fetch, a, p);
      CollectSpec(fetch, b, p);
    }
  }

  /** `sorted(page_results.keys())`, for keys in `lo .. hi-1`. */
  function Ascending(m: map<int, Json>, lo: int, hi: int): (ks: seq<int>)
    ensures forall i :: 0 <= i < |ks| ==> lo <= ks[i] < hi && ks[i] in m
    decreases hi - lo
  {
    if lo >= hi then []
    else
      var rest := Ascending(m, lo + 1, hi);
      if lo in m then [lo] + rest else rest
  }

  /** The keys listed are strictly ascending and are all the keys in range. */
  lemma {:induction false} AscendingSpec(m: map<int, Json>, lo: int, hi: int)
    ensures var ks := Ascending(m, lo, hi);
            && (forall i, j :: 0 <= i < j < |ks| ==> ks[i] < ks[j])
            && (forall p :: lo <= p < hi && p in m ==> p in ks)
    decreases hi - lo
  {
    if lo < hi {
      AscendingSpec(m, lo + 1, hi);
      var rest := Ascending(m, lo + 1, hi);
      if lo in m {
        var ks := [lo] + rest;
        assert Ascending(m, lo, hi) == ks;
        forall i, j | 0 <= i < j < |ks|
          ensures ks[i] < ks[j]
        {
          if i > 0 {
            assert ks[i] == rest[i - 1] && ks[j] == rest[j - 1];
          }
        }
      }
    }
  }

  /** The numbers of the kept pages, ascending. */
  function KeptPages(fetch: int -> Fetched, total: int): seq<int>
  {
    Ascending(Collect(fetch, Remaining(total)), 2, Estimated(total) + 1)
  }

  /** The kept pages' `list_data`, in ascending page order. */
  function KeptPayloads(fetch: int -> Fetched, total: int): (pds: seq<Json>)
    ensures |pds| == |KeptPages(fetch, total)|
  {
    var m := Collect(fetch, Remaining(total));
    var ks := KeptPages(fetch, total);
    seq(|ks|, i requires 0 <= i < |ks| => m[ks[i]])
  }

  /** The pages merged are exactly the estimated pages after the first whose
      replies were kept, in ascending order, each with its own reply's records. */
  lemma KeptPagesSpec(fetch: int -> Fetched, total: int)
    ensures var ks := KeptPages(fetch, total);
            && (forall i, j :: 0 <= i < j < |ks| ==> ks[i] < ks[j])
            && (forall p :: p in ks <==> p in Remaining(total) && PagePayload(fetch(p)).Some?)
            && (forall i :: 0 <= i < |ks| ==> KeptPayloads(fetch, total)[i] == PagePayload(fetch(ks[i])).value)
  {
    var m := Collect(fetch, Remaining(total));
    var ks := KeptPages(fetch, total);
    var ps := Remaining(total);
    AscendingSpec(m, 2, Estimated(total) + 1);
    forall p
      ensures p in ks <==> p in ps && PagePayload(fetch(p)).Some?
      ensures p in m ==> PagePayload(fetch(p)).Some? && m[p] == PagePayload(fetch(p)).value
    {
      CollectSpec(fetch, ps, p);
      if p in ps {
        var i :| 0 <= i < |ps| && ps[i] == p;
        assert 2 <= p < Estimated(total) + 1;
      }
      if p in ks {
        var i :| 0 <= i < |ks| && ks[i] == p;
        assert p in m;
      }
    }
  }

  /** What `extend` appends for a page, or nothing for a page without records. */
  function ItemsOf(page: Json): seq<Json>
  {
    match Elements(page)
    case Some(xs) => xs
    case None => []
  }

  /** The records of the first `n` pages, one page after another. */
  function Flat(pages: seq<Json>, n: nat): seq<Json>
    requires n <= |pages|
  {
    if n == 0 then [] else ItemsOf(pages[0]) + Flat(pages[1..], n - 1)
  }

  /** The merge loop: each page's records appended in turn, stopping right
      after the first page that brings the count to `total` or beyond. */
  function Merge(all: seq<Json>, pages: seq<Json>, total: int): (r: Result<seq<Json>>)
    ensures r.Ok? ==> |all| <= |r.value| && r.value[..|all|] == all
    ensures r.Raise? ==> exists i :: 0 <= i < |pages| && Elements(pages[i]).None?
    decreases |pages|
  {
    if pages == [] then Ok(all)
    else match Elements(pages[0])
      case None => Raise("'" + TypeName(pages[0]) + "' object is not iterable")
      case Some(xs) =>
        if |all + xs| >= total then Ok(all + xs) else Merge(all + xs, pages[1..], total)
  }

  /** `n` pages are merged: each has records to append, the count stays below
      `total` after every page but the last of them, and if pages remain the
      count has reached `total`. */
  ghost predicate StopsAt(all: seq<Json>, pages: seq<Json>, total: int, n: nat)
  {
    && n <= |pages|
    && (forall j :: 0 <= j < n ==> Elements(pages[j]).Some?)
    && (forall j :: 0 < j < n ==> |all + Flat(pages, j)| < total)
    && (n < |pages| ==> 0 < n && |all + Flat(pages, n)| >= total)
  }

  /** Where the cut falls, the merge gives the records of the pages before it. */
  lemma {:induction false} MergeCut(all: seq<Json>, pages: seq<Json>, total: int, n: nat)
    requires StopsAt(all, pages, total, n)
    ensures Merge(all, pages, total) == Ok(all + Flat(pages, n))
    decreases |pages|
  {
    if n == 0 {
      assert pages == [] && all + Flat(pages, 0) == all;
    } else {
      var xs := ItemsOf(pages[0]);
      assert Elements(pages[0]) == Some(xs);
      if n == 1 {
        assert Flat(pages, 1) == xs;
        if |pages| == 1 {
          assert pages[1..] == [];
        }
      } else {
        StopsAtTail(all, pages, total, n);
        MergeCut(all + xs, pages[1..], total, n - 1);
        FlatShift(all, pages, n);
      }
    }
  }

  /** A cut after `n > 1` pages is a cut after `n - 1` of the later pages,
      once the first page's records are merged. */
  lemma StopsAtTail(all: seq<Json>, pages: seq<Json>, total: int, n: nat)
    requires 1 < n && StopsAt(all, pages, total, n)
    ensures |all + ItemsOf(pages[0])| < total
    ensures StopsAt(all + ItemsOf(pages[0]), pages[1..], total, n - 1)
  {
    var xs := ItemsOf(pages[0]);
    forall j | 0 <= j < n - 1
      ensures Elements(pages[1..][j]).Some?
    {
      assert pages[1..][j] == pages[j + 1];
    }
    FlatShift(all, pages, 1);
    forall j | 0 < j < n - 1
      ensures |(all + xs) + Flat(pages[1..], j)| < total
    {
      FlatShift(all, pages, j + 1);
    }
    if n - 1 < |pages[1..]| {
      FlatShift(all, pages, n);
    }
  }

  /** A merge that does not raise stops at some cut. */
  lemma {:induction false} MergeHasCut(all: seq<Json>, pages: seq<Json>, total: int)
    requires Merge(all, pages, total).Ok?
    ensures exists n: nat :: StopsAt(all, pages, total, n) && Merge(all, pages, total).value == all + Flat(pages, n)
    decreases |pages|
  {
    if pages == [] {
      assert StopsAt(all, pages, total, 0);
    } else {
      var xs := ItemsOf(pages[0]);
      assert Flat(pages, 1) == xs;
      if |all + xs| >= total {
        assert StopsAt(all, pages, total, 1);
      } else {
        MergeHasCut(all + xs, pages[1..], total);
        var n: nat :| StopsAt(all + xs, pages[1..], total, n)
                      && Merge(all + xs, pages[1..], total).value == all + xs + Flat(pages[1..], n);
        StopsAtCons(all, pages, total, n);
      }
    }
  }

  /** A cut after `n` of the later pages is a cut after `n + 1` pages, when the
      first page has records and leaves the count below `total`. */
  lemma StopsAtCons(all: seq<Json>, pages: seq<Json>, total: int, n: nat)
    requires pages != [] && Elements(pages[0]).Some?
    requires |all + ItemsOf(pages[0])| < total
    requires StopsAt(all + ItemsOf(pages[0]), pages[1..], total, n)
    ensures StopsAt(all, pages, total, n + 1)
    ensures all + Flat(pages, n + 1) == (all + ItemsOf(pages[0])) + Flat(pages[1..], n)
  {
    var xs := ItemsOf(pages[0]);
    forall j | 0 <= j < n + 1
      ensures Elements(pages[j]).Some?
    {
      if j > 0 {
        assert pages[j] == pages[1..][j - 1];
      }
    }
    forall j | 0 < j < n + 1
      ensures |all + Flat(pages, j)| < total
    {
      FlatShift(all, pages, j);
    }
    FlatShift(all, pages, n + 1);
  }

  /** Merging `j > 0` pages is merging the first page, then `j - 1` of the rest. */
  lemma FlatShift(all: seq<Json>, pages: seq<Json>, j: nat)
    requires 0 < j <= |pages|
    ensures all + Flat(pages, j) == (all + ItemsOf(pages[0])) + Flat(pages[1..], j - 1)
  {
  }

  /** Listing the records: `athlete.get(...)` raises on the first record that
      is not a dict. */
  function Shown(all: seq<Json>): (r: Found)
    ensures r.Records? <==> forall i :: 0 <= i < |all| ==> all[i].JObj?
    ensures r.Records? ==> r.items == all
    ensures r.Raised? ==> exists i :: 0 <= i < |all| && !all[i].JObj? && r.message == NoGetMessage(all[i])
    ensures !r.Nothing?
  {
    ShownFrom(all, 0)
  }

  function ShownFrom(all: seq<Json>, k: nat): (r: Found)
    requires k <= |all|
    requires forall i :: 0 <= i < k ==> all[i].JObj?
    ensures r.Records? <==> forall i :: 0 <= i < |all| ==> all[i].JObj?
    ensures r.Records? ==> r.items == all
    ensures r.Raised? ==> exists i :: 0 <= i < |all| && !all[i].JObj? && r.message == NoGetMessage(all[i])
    ensures !r.Nothing?
    decreases |all| - k
  {
    if k == |all| then Records(all)
    else if !all[k].JObj? then Raised(NoGetMessage(all[k]))
    else ShownFrom(all, k + 1)
  }

  /** `test_rank_search_api(name, fetch_all)`, with `fetch(n)` standing for
      `fetch_page(n)`. */
  function SearchRanks(fetch: int -> Fetched, fetchAll: bool): (r: Found)
    ensures r == Nothing <==>
              || fetch(1).Failed?
              || (fetch(1).body.JObj? && (!Accepted(fetch(1).body.fields) || "data" !in fetch(1).body.fields.vals))
    ensures r.Records? ==> forall i :: 0 <= i < |r.items| ==> r.items[i].JObj?
  {
    match Opening(fetch(1))
    case Stop(r) => r
    case Proceed(total, first) =>
      if !fetchAll || |first| >= total || first == [] then Shown(first)
      else match Merge(first, KeptPayloads(fetch, total), total)
        case Raise(m) => Raised(m)
        case Ok(all) => Shown(all)
  }

  /** The records a search returns begin with page 1's records. */
  lemma PageOneFirst(fetch: int -> Fetched, fetchAll: bool)
    requires Opening(fetch(1)).Proceed? && SearchRanks(fetch, fetchAll).Records?
    ensures var first := Opening(fetch(1)).first;
            var items := SearchRanks(fetch, fetchAll).items;
            |first| <= |items| && items[..|first|] == first
  {
    var st := Opening(fetch(1));
    if fetchAll && |st.first| < st.total && st.first != [] {
      var m := Merge(st.first, KeptPayloads(fetch, st.total), st.total);
      assert m.Ok? && SearchRanks(fetch, fetchAll) == Shown(m.value);
    } else {
      assert SearchRanks(fetch, fetchAll) == Shown(st.first);
    }
  }

  /** Without `fetch_all`, when page 1 already holds `total` records, or when
      it is empty, the search returns page 1's records and requests no other
      page: any other answers for pages 2 on give the same result. */
  lemma SinglePage(fetch: int -> Fetched, other: int -> Fetched, fetchAll: bool)
    requires fetch(1) == other(1)
    requires Opening(fetch(1)).Proceed?
    requires var st := Opening(fetch(1)); !fetchAll || |st.first| >= st.total || st.first == []
    ensures SearchRanks(fetch, fetchAll) == SearchRanks(other, fetchAll) == Shown(Opening(fetch(1)).first)
  {
  }

  /** A search that goes past page 1 and succeeds returns page 1's records
      followed by those of the kept pages in ascending page order, up to the
      first page that brings the count to `total`; no page is merged once the
      count has reached it. */
  lemma MergedInPageOrder(fetch: int -> Fetched, fetchAll: bool)
    requires Opening(fetch(1)).Proceed?
    requires var st := Opening(fetch(1)); fetchAll && |st.first| < st.total && st.first != []
    requires SearchRanks(fetch, fetchAll).Records?
    ensures var st := Opening(fetch(1));
            exists n: nat :: && StopsAt(st.first, KeptPayloads(fetch, st.total), st.total, n)
                             && SearchRanks(fetch, fetchAll).items == st.first + Flat(KeptPayloads(fetch, st.total), n)
  {
    var st := Opening(fetch(1));
    MergeHasCut(st.first, KeptPayloads(fetch, st.total), st.total);
  }

  /** A search past page 1 whose merge stops at the cut `n` shows page 1's
      records followed by those of the first `n` kept pages: it returns them
      when they are all dicts, and raises on the first that is not. */
  lemma MergedSearch(fetch: int -> Fetched, n: nat)
    requires Opening(fetch(1)).Proceed?
    requires var st := Opening(fetch(1)); |st.first| < st.total && st.first != []
    requires var st := Opening(fetch(1)); StopsAt(st.first, KeptPayloads(fetch, st.total), st.total, n)
    ensures var st := Opening(fetch(1));
            SearchRanks(fetch, true) == Shown(st.first + Flat(KeptPayloads(fetch, st.total), n))
  {
    var st := Opening(fetch(1));
    var pages := KeptPayloads(fetch, st.total);
    MergeCut(st.first, pages, st.total, n);
    assert SearchRanks(fetch, true) == match Merge(st.first, pages, st.total)
                                         case Raise(m) => Raised(m)
                                         case Ok(all) => Shown(all);
  }
}

=== FILE: query.dfy ===
/**
 `SimpleAthleteQuery.query_one`: look a certificate number up in the cache, and
 otherwise classify the service's reply and decide whether to cache it. The
 network call is replaced by its observable result, a `Probe`.
 */
module Query {
  import opened Outcomes
  import opened Text
  import opened Dicts
  import opened JsonValue
  import opened CacheStore

  /** The body of an HTTP 200 reply: decoded by `resp.json()` or by the
      fallback `json.loads(resp.text())`, or decodable by neither. */
  datatype Body =
    | Decoded(value: Json)
    | Undecodable(reason: string, contentType: Option<string>, text: string)

  /** What the POST to the service produced: an exception on the way (timeout,
      connection error), or a reply with its status code and body. */
  datatype Probe = Raised(message: string) | Reply(status: int, body: Body)

  /** The tuple `(cert_no, entry, from_cache)` together with the cache afterwards. */
  datatype Answer = Answer(certNo: string, entry: Json, fromCache: bool, cache: Cache)

  /** How a decoded reply is handled: refused without caching, kept (annotated
      when it is a dict), or an exception raised while annotating it. */
  datatype Verdict = Refuse(message: string) | Keep(result: Json) | Fail(message: string)

  const InvalidReplyMessage := "API返回无效响应（error为空或null），视为查询失败"

  /** The response recorded for a failed query. */
  function FailureResponse(message: string): (r: Json)
    ensures FailureMarked(r) && Get(r.fields, "error") == Some(JStr(message))
  {
    assert "query_success"[0] != "has_data"[0] && "error"[0] !in {"query_success"[0], "has_data"[0]};
    ThreeKeys("query_success", JBool(false), "has_data", JBool(false), "error", JStr(message));
    JObj(Put(Put(Put(Empty(), "query_success", JBool(false)), "has_data", JBool(false)),
             "error", JStr(message)))
  }

  /** The entry stored in the cache and returned to the batch driver. */
  function Entry(now: string, certNo: string, name: string, response: Json): (e: Json)
    ensures EntryFor(e, now, certNo, name) && ResponseOf(e) == response
  {
    assert "time"[0] !in {"cert_no"[0], "name"[0], "response"[0]};
    assert "cert_no"[0] !in {"name"[0], "response"[0]} && "name"[0] != "response"[0];
    FourKeys("time", JStr(now), "cert_no", JStr(certNo), "name", JStr(name), "response", response);
    JObj(Put(Put(Put(Put(Empty(), "time", JStr(now)), "cert_no", JStr(certNo)), "name", JStr(name)),
             "response", response))
  }

  /** The dict that stands in for a body neither parser could decode. */
  function UndecodableResult(reason: string, contentType: Option<string>, text: string): Json
  {
    var shown := Excerpt(text);
    var ct := match contentType case Some(t) => t case None => "未知";
    var failure := FailureResponse("JSON解析失败: " + reason).fields;
    JObj(Put(Put(failure, "content_type", JStr(ct)), "response_text", JStr(shown)))
  }

  /** `text[:500]`: the first 500 characters, or all of a shorter text. */
  function Excerpt(text: string): (r: string)
    ensures |r| <= 500 && |r| <= |text| && r == text[..|r|]
    ensures |text| <= 500 ==> r == text
    ensures |text| > 500 ==> |r| == 500
  {
    if |text| <= 500 then text else text[..500]
  }

  /** Python's evaluation of
      `result.get("response") == 0 and result.get("error") == 0 and result.get("data", {}).get("total", 0) > 0`,
      short-circuit included: a non-dict `data` or a `total` that does not compare
      with an int raises. */
  function HasData(o: Dict<Json>): (r: Result<bool>)
    ensures !Unmeasurable(o) ==> r == Ok(ReportsData(o))
    ensures Unmeasurable(o) ==> r.Raise?
  {
    if !EqInt(GetOr(o, "response", JNull), 0) || !EqInt(GetOr(o, "error", JNull), 0) then Ok(false)
    else
      var data := GetOr(o, "data", JObj(Empty()));
      if !data.JObj? then Raise(NoGetMessage(data))
      else
        var total := GetOr(data.fields, "total", JInt(0));
        if total.JInt? then Ok(total.n > 0)
        else if total.JBool? then Ok(total.b)
        else Raise("'>' not supported between instances of '" + TypeName(total) + "' and 'int'")
  }

  /** The checks and annotation `query_one` applies to a decoded 200 reply, in
      the order it applies them. Exactly the shapes `Refused` describes are
      refused, and a value that is not a dict passes untouched. */
  function Classify(result: Json): (v: Verdict)
    ensures v.Refuse? <==> Refused(result)
    ensures !result.JObj? ==> v == Keep(result)
    ensures v.Refuse? ==>
              v.message == if "response" in result.fields.vals
                           then "API返回error=" + Str(result.fields.vals["error"]) + "，查询失败"
                           else InvalidReplyMessage
    ensures v.Fail? ==>
              && result.JObj? && "response" in result.fields.vals
              && HasData(result.fields) == Raise(v.message)
  {
    if !result.JObj? then Keep(result)
    else
      var o := result.fields;
      if "response" !in o.vals && "error" in o.vals
         && (o.vals["error"] == JNull || o.vals["error"] == JStr(""))
      then Refuse(InvalidReplyMessage)
      else if "response" in o.vals && "error" in o.vals
         && !EqInt(o.vals["error"], 0) && o.vals["error"] != JStr("0")
      then Refuse("API返回error=" + Str(o.vals["error"]) + "，查询失败")
      else if "response" in o.vals then
        var marked := Put(o, "query_success", JBool(true));
        match HasData(marked)
        case Ok(b) => Keep(JObj(Put(marked, "has_data", JBool(b))))
        case Raise(m) => Fail(m)
      else if "query_success" !in o.vals then
        Keep(JObj(Put(Put(o, "query_success", JBool(true)), "has_data", JBool(false))))
      else Keep(result)
  }

  /** The reply shapes that are answered as failures and not cached: an `error`
      of null or "" without a `response`, or an `error` other than 0 / "0"
      beside a `response`. */
  ghost predicate Refused(v: Json)
  {
    && v.JObj?
    && "error" in v.fields.vals
    && var e := v.fields.vals["error"];
       if "response" in v.fields.vals then e !in {JInt(0), JBool(false), JStr("0")}
       else e in {JNull, JStr("")}
  }

  ghost predicate RefusedProbe(p: Probe)
  {
    p.Reply? && p.status == 200 && p.body.Decoded? && Refused(p.body.value)
  }

  /** `e` is an entry for this query: time, number and name, then the response. */
  ghost predicate EntryFor(e: Json, now: string, certNo: string, name: string)
  {
    && e.JObj?
    && e.fields.keys == ["time", "cert_no", "name", "response"]
    && Get(e.fields, "time") == Some(JStr(now))
    && Get(e.fields, "cert_no") == Some(JStr(certNo))
    && Get(e.fields, "name") == Some(JStr(name))
  }

  /** The `response` part of an entry. */
  function ResponseOf(e: Json): Json
  {
    if e.JObj? && "response" in e.fields.vals then e.fields.vals["response"] else JNull
  }

  /** The flag `k` of a response is present and true. */
  predicate FlagSet(r: Json, k: string)
  {
    r.JObj? && k in r.fields.vals && r.fields.vals[k] == JBool(true)
  }

  /** The response marks the query as failed: both flags false, with a message. */
  ghost predicate FailureMarked(r: Json)
  {
    && r.JObj?
    && r.fields.keys == ["query_success", "has_data", "error"]
    && Get(r.fields, "query_success") == Some(JBool(false))
    && Get(r.fields, "has_data") == Some(JBool(false))
    && GetOr(r.fields, "error", JNull).JStr?
  }

  /** The response recorded for a decoded 200 reply, and whether it is cached. */
  function Decide(result: Json): (out: (Json, bool))
    ensures out.1 <==> !Refused(result)
    ensures !out.1 ==> FailureMarked(out.0)
    ensures !result.JObj? ==> out == (result, true)
    ensures !out.1 ==> Get(out.0.fields, "error") == Some(JStr(Classify(result).message))
  {
    match Classify(result)
    case Refuse(m) => (FailureResponse(m), false)
    case Keep(v) => (v, true)
    case Fail(m) => (FailureResponse(m), true)
  }

  /** The response a fresh query records, and whether the entry is cached. */
  function Respond(probe: Probe): (out: (Json, bool))
    ensures out.1 <==> !RefusedProbe(probe)
    ensures !out.1 ==> FailureMarked(out.0)
    ensures probe.Raised? ==>
              FailureMarked(out.0) && Get(out.0.fields, "error") == Some(JStr(probe.message))
    ensures probe.Reply? && probe.status != 200 ==>
              && FailureMarked(out.0)
              && Get(out.0.fields, "error") == Some(JStr("HTTP " + IntToString(probe.status)))
    ensures probe.Reply? && probe.status == 200 && probe.body.Decoded? ==> out == Decide(probe.body.value)
    ensures probe.Reply? && probe.status == 200 && probe.body.Undecodable? ==>
              out == (UndecodableResult(probe.body.reason, probe.body.contentType, probe.body.text), true)
  {
    match probe
    case Raised(m) => (FailureResponse(m), true)
    case Reply(status, body) =>
      if status != 200 then (FailureResponse("HTTP " + IntToString(status)), true)
      else
        match body
        case Decoded(v) => Decide(v)
        case Undecodable(reason, ct, text) =>
          var result := UndecodableResult(reason, ct, text);
          UndecodableKept(reason, ct, text);
          Decide(result)
  }

  /** `query_one(session, name, cert_no)` with the POST replaced by `probe` and
      `datetime.now().isoformat()` by `now`. */
  function QueryOne(cache: Cache, name: string, certNo: string, now: string, probe: Probe): (a: Answer)
    ensures a.certNo == certNo
    ensures CacheKey(name, certNo) in cache.vals ==>
              a.entry == cache.vals[CacheKey(name, certNo)] && a.fromCache && a.cache == cache
    ensures CacheKey(name, certNo) !in cache.vals ==>
              && !a.fromCache
              && EntryFor(a.entry, now, certNo, name)
              && ResponseOf(a.entry) == Respond(probe).0
              && (a.cache == cache <==> RefusedProbe(probe))
    ensures CacheKey(name, certNo) !in cache.vals && !RefusedProbe(probe) ==>
              && a.cache.keys == cache.keys + [CacheKey(name, certNo)]
              && a.cache.vals == cache.vals[CacheKey(name, certNo) := a.entry]
    ensures CacheKey(name, certNo) !in cache.vals && RefusedProbe(probe) ==>
              FailureMarked(ResponseOf(a.entry))
  {
    var key := CacheKey(name, certNo);
    if key in cache.vals then Answer(certNo, cache.vals[key], true, cache)
    else
      var (response, keep) := Respond(probe);
      var entry := Entry(now, certNo, name, response);
      if keep then Answer(certNo, entry, false, Put(cache, key, entry))
      else Answer(certNo, entry, false, cache)
  }

  /** The stand-in for an undecodable body is never refused and is recorded as
      it is, with both flags false. */
  lemma UndecodableKept(reason: string, contentType: Option<string>, text: string)
    ensures !Refused(UndecodableResult(reason, contentType, text))
    ensures Decide(UndecodableResult(reason, contentType, text)) == (UndecodableResult(reason, contentType, text), true)
    ensures Get(UndecodableResult(reason, contentType, text).fields, "query_success") == Some(JBool(false))
    ensures Get(UndecodableResult(reason, contentType, text).fields, "has_data") == Some(JBool(false))
  {
    UndecodableShape(reason, contentType, text);
    FlaggedKept(UndecodableResult(reason, contentType, text));
  }

  /** A dict without `response` whose `error` is a non-empty string and which
      already carries `query_success` passes every check unchanged. */
  lemma FlaggedKept(r: Json)
    requires r.JObj? && "response" !in r.fields.vals && "query_success" in r.fields.vals
    requires "error" in r.fields.vals && r.fields.vals["error"].JStr? && r.fields.vals["error"].s != ""
    ensures Classify(r) == Keep(r) && !Refused(r) && Decide(r) == (r, true)
  {
  }

  /** A dict the service flagged itself (no `response`, but `query_success`)
      that is not refused is recorded as it came, and cached. */
  lemma ServerFlaggedKept(o: Dict<Json>)
    requires "response" !in o.vals && "query_success" in o.vals && !Refused(JObj(o))
    ensures Decide(JObj(o)) == (JObj(o), true)
  {
  }

  /** A dict with neither `response` nor `query_success` that is not refused
      is recorded with `query_success` true and `has_data` false, every other
      field kept, and cached. */
  lemma UnflaggedReply(o: Dict<Json>)
    requires "response" !in o.vals && "query_success" !in o.vals && !Refused(JObj(o))
    ensures Decide(JObj(o)).1 && Decide(JObj(o)).0.JObj?
    ensures Decide(JObj(o)).0.fields.vals == o.vals["query_success" := JBool(true)]["has_data" := JBool(false)]
    ensures "has_data" !in o.vals ==> Decide(JObj(o)).0.fields.keys == o.keys + ["query_success", "has_data"]
  {
    assert "query_success" != "has_data" by { assert "query_success"[0] != "has_data"[0]; }
  }

  /** The stand-in for an undecodable body: both flags false, the parser's
      message, the reply's content type or `未知`, and at most the first 500
      characters of the body text. */
  lemma UndecodableShape(reason: string, contentType: Option<string>, text: string)
    ensures var o := UndecodableResult(reason, contentType, text).fields;
      && "response" !in o.vals
      && Get(o, "error") == Some(JStr("JSON解析失败: " + reason))
      && Get(o, "query_success") == Some(JBool(false))
      && Get(o, "has_data") == Some(JBool(false))
      && (contentType.Some? ==> Get(o, "content_type") == Some(JStr(contentType.value)))
      && (contentType.None? ==> Get(o, "content_type") == Some(JStr("未知")))
      && Get(o, "response_text") == Some(JStr(Excerpt(text)))
  {
    var ct := match contentType case Some(t) => t case None => "未知";
    var shown := Excerpt(text);
    AnnotatedFailure(FailureResponse("JSON解析失败: " + reason), ct, shown);
  }

  /** A failure response with a content type and a body excerpt added keeps
      its flags and message and still has no `response`. */
  lemma AnnotatedFailure(r: Json, ct: string, shown: string)
    requires FailureMarked(r)
    ensures var o := Put(Put(r.fields, "content_type", JStr(ct)), "response_text", JStr(shown));
      && "response" !in o.vals
      && Get(o, "error") == Get(r.fields, "error")
      && Get(o, "query_success") == Some(JBool(false))
      && Get(o, "has_data") == Some(JBool(false))
      && Get(o, "content_type") == Some(JStr(ct))
      && Get(o, "response_text") == Some(JStr(shown))
  {
    assert "response" !in r.fields.vals by {
      assert "response"[0] !in {"query_success"[0], "has_data"[0], "error"[0]};
    }
    assert "response" != "content_type" by { assert "response"[0] != "content_type"[0]; }
    assert "response" != "response_text" by { assert |"response"| != |"response_text"|; }
    AddedKeep(r.fields, ct, shown);
  }

  /** Adding `content_type` and `response_text` sets them and changes no flag
      and no error. */
  lemma AddedKeep(d: Dict<Json>, ct: string, shown: string)
    ensures var o := Put(Put(d, "content_type", JStr(ct)), "response_text", JStr(shown));
      && Get(o, "error") == Get(d, "error")
      && Get(o, "query_success") == Get(d, "query_success")
      && Get(o, "has_data") == Get(d, "has_data")
      && Get(o, "content_type") == Some(JStr(ct))
      && Get(o, "response_text") == Some(JStr(shown))
  {
    assert "content_type" != "response_text" by { assert "content_type"[0] != "response_text"[0]; }
    assert "error" != "content_type" && "error" != "response_text" by {
      assert "error"[0] !in {"content_type"[0], "response_text"[0]};
    }
    assert "has_data" != "content_type" && "has_data" != "response_text" by {
      assert "has_data"[0] !in {"content_type"[0], "response_text"[0]};
    }
    assert "query_success" != "content_type" && "query_success" != "response_text" by {
      assert "query_success"[0] !in {"content_type"[0], "response_text"[0]};
    }
  }

  /** The reply reports data: `response` and `error` both equal 0 and the
      `data` dict carries a `total` above 0. */
  ghost predicate ReportsData(o: Dict<Json>)
  {
    && "response" in o.vals && EqInt(o.vals["response"], 0)
    && "error" in o.vals && EqInt(o.vals["error"], 0)
    && "data" in o.vals && o.vals["data"].JObj?
    && "total" in o.vals["data"].fields.vals
    && var t := o.vals["data"].fields.vals["total"];
       (t.JInt? && t.n > 0) || t == JBool(true)
  }

  /** Reaching the `total > 0` test raises: both codes are 0 but `data` is not a
      dict, or its `total` is neither an int nor a bool. */
  ghost predicate Unmeasurable(o: Dict<Json>)
  {
    && "response" in o.vals && EqInt(o.vals["response"], 0)
    && "error" in o.vals && EqInt(o.vals["error"], 0)
    && "data" in o.vals
    && (|| !o.vals["data"].JObj?
        || ("total" in o.vals["data"].fields.vals
            && !o.vals["data"].fields.vals["total"].JInt?
            && !o.vals["data"].fields.vals["total"].JBool?))
  }

  /** A regular reply (one with a `response` field that is not refused) is
      recorded with `query_success` set and `has_data` telling whether it
      reports data, every other field kept; when the data test raises, the
      failure is recorded instead. Either way the entry is cached. */
  lemma AnnotatedReply(o: Dict<Json>)
    requires "response" in o.vals && !Refused(JObj(o))
    ensures Decide(JObj(o)).1
    ensures !Unmeasurable(o) ==>
              && Decide(JObj(o)).0.JObj?
              && Decide(JObj(o)).0.fields.vals
                 == o.vals["query_success" := JBool(true)]["has_data" := JBool(ReportsData(o))]
    ensures Unmeasurable(o) ==> FailureMarked(Decide(JObj(o)).0)
    ensures Unmeasurable(o) ==> Get(Decide(JObj(o)).0.fields, "error") == Some(JStr(HasData(o).message))
  {
    MarkedHasData(o);
  }

  /** Setting `query_success` first does not change the data test. */
  lemma MarkedHasData(o: Dict<Json>)
    ensures HasData(Put(o, "query_success", JBool(true))) == HasData(o)
  {
    assert "query_success"[0] !in {"response"[0], "error"[0], "data"[0]};
    var marked := Put(o, "query_success", JBool(true));
    assert GetOr(marked, "response", JNull) == GetOr(o, "response", JNull);
    assert GetOr(marked, "error", JNull) == GetOr(o, "error", JNull);
    assert GetOr(marked, "data", JObj(Empty())) == GetOr(o, "data", JObj(Empty()));
  }

  /** The service set its own flags on a reply without a `response` field;
      such a reply is kept as it came. */
  ghost predicate ServerFlagged(p: Probe)
  {
    && p.Reply? && p.status == 200 && p.body.Decoded? && p.body.value.JObj?
    && "response" !in p.body.value.fields.vals
    && "query_success" in p.body.value.fields.vals
  }

  /** A recorded response that claims data also claims success, unless the
      flags came from the service itself. */
  lemma FlagsAgree(probe: Probe)
    requires !ServerFlagged(probe)
    ensures FlagSet(Respond(probe).0, "has_data") ==> FlagSet(Respond(probe).0, "query_success")
  {
    if probe.Reply? && probe.status == 200 {
      match probe.body
      case Decoded(v) => DecidedFlagsAgree(v);
      case Undecodable(reason, ct, text) =>
        UndecodableKept(reason, ct, text);
    }
  }

  lemma DecidedFlagsAgree(v: Json)
    requires v.JObj? && "response" !in v.fields.vals ==> "query_success" !in v.fields.vals
    ensures FlagSet(Decide(v).0, "has_data") ==> FlagSet(Decide(v).0, "query_success")
  {
    if v.JObj? && !Refused(v) {
      var o := v.fields;
      if "response" in o.vals {
        AnnotatedReply(o);
        if !Unmeasurable(o) {
          assert "query_success" != "has_data";
        }
      } else if "query_success" !in o.vals {
        var r := Decide(v).0;
        assert r.fields.vals["has_data"] == JBool(false);
      }
    }
  }

  /** A query files its new entry under the entry's own name and number, so a
      canonical cache stays canonical. */
  lemma QueryKeepsCanonical(cache: Cache, name: string, certNo: string, now: string, probe: Probe)
    requires Canonical(cache)
    ensures Canonical(QueryOne(cache, name, certNo, now, probe).cache)
  {
    var a := QueryOne(cache, name, certNo, now, probe);
    var key := CacheKey(name, certNo);
    if key !in cache.vals && !RefusedProbe(probe) {
      EntryKey(a.entry, now, certNo, name);
      FiledCanonical(cache, a.cache, key, a.entry);
    }
  }

  /** An entry for a query is filed under that query's cache key. */
  lemma EntryKey(e: Json, now: string, certNo: string, name: string)
    requires EntryFor(e, now, certNo, name)
    ensures KeyOf(e) == Some(CacheKey(name, certNo))
  {
    assert e.fields.vals["name"] == JStr(name) && e.fields.vals["cert_no"] == JStr(certNo);
  }

  /** Filing a value under its own key keeps a cache canonical. */
  lemma FiledCanonical(c: Cache, c': Cache, key: string, e: Json)
    requires Canonical(c) && KeyOf(e) == Some(key) && c'.vals == c.vals[key := e]
    ensures Canonical(c')
  {
    forall k | k in c'.vals
      ensures KeyOf(c'.vals[k]) == Some(k)
    {
      if k != key {
        assert c'.vals[k] == c.vals[k];
      }
    }
  }

  /** A query reads only its own key: caches that agree there give the same
      entry and store the same value there. It writes only that key, and it
      reports a hit exactly when the key was present. */
  lemma QueryLocal(c: Cache, c': Cache, name: string, certNo: string, now: string, probe: Probe)
    requires Get(c, CacheKey(name, certNo)) == Get(c', CacheKey(name, certNo))
    ensures QueryOne(c, name, certNo, now, probe).entry == QueryOne(c', name, certNo, now, probe).entry
    ensures Get(QueryOne(c, name, certNo, now, probe).cache, CacheKey(name, certNo))
            == Get(QueryOne(c', name, certNo, now, probe).cache, CacheKey(name, certNo))
    ensures QueryOne(c, name, certNo, now, probe).fromCache == (CacheKey(name, certNo) in c.vals)
    ensures forall k :: k != CacheKey(name, certNo) ==>
              Get(QueryOne(c, name, certNo, now, probe).cache, k) == Get(c, k)
  {
    QueryFrame(c, name, certNo, now, probe);
  }

  /** A query reports a hit exactly when its key was present, and writes no
      other key. */
  lemma QueryFrame(c: Cache, name: string, certNo: string, now: string, probe: Probe)
    ensures QueryOne(c, name, certNo, now, probe).fromCache == (CacheKey(name, certNo) in c.vals)
    ensures forall k :: k != CacheKey(name, certNo) ==>
              Get(QueryOne(c, name, certNo, now, probe).cache, k) == Get(c, k)
  {
  }
}

=== FILE: text.dfy ===
/**
 String helpers with the semantics of the Python built-ins the prober uses:
 `str(int)`, `int(str)`, `str.strip()`, `str.startswith`, `str.replace(pat, "")`,
 `str.split(sep)[0]` and `sep.join(parts)`.
 */
module Text {
  import opened Outcomes

  /** The decimal digit character for 0 <= d < 10. */
  function DigitChar(d: nat): char
    requires d < 10
  {
    "0123456789"[d]
  }

  predicate IsDigit(c: char) {
    '0' <= c <= '9'
  }

  function DigitValue(c: char): nat
    requires IsDigit(c)
  {
    (c - '0') as nat
  }

  /** `str(n)` for a natural number: shortest decimal form, no leading zeros. */
  function NatToString(n: nat): (s: string)
    ensures |s| >= 1
    ensures forall i :: 0 <= i < |s| ==> IsDigit(s[i])
    decreases n
  {
    if n < 10 then [DigitChar(n)] else NatToString(n / 10) + [DigitChar(n % 10)]
  }

  /** `str(i)` for any Python int: a leading '-' for negatives. */
  function IntToString(i: int): (s: string)
    ensures |s| >= 1
    ensures i >= 0 ==> forall k :: 0 <= k < |s| ==> IsDigit(s[k])
    ensures i < 0 ==> s[0] == '-' && forall k :: 1 <= k < |s| ==> IsDigit(s[k])
  {
    if i < 0 then ['-'] + NatToString(-i) else NatToString(i)
  }

  /** Value of a non-empty run of ASCII digits, most significant first. */
  function DigitsValue(s: string): nat
    requires forall i :: 0 <= i < |s| ==> IsDigit(s[i])
  {
    if s == [] then 0 else 10 * DigitsValue(s[..|s| - 1]) + DigitValue(s[|s| - 1])
  }

  predicate AllDigits(s: string) {
    |s| >= 1 && forall i :: 0 <= i < |s| ==> IsDigit(s[i])
  }

  /** Python's `int(s)` on a string: surrounding white space, an optional sign,
      then ASCII digits; anything else is a ValueError (None). */
  function ParseInt(s: string): (r: Option<int>)
    ensures r.Some? ==> |Strip(s)| >= 1
  {
    ParseSigned(Strip(s))
  }

  /** An optional sign followed by ASCII digits. */
  function ParseSigned(t: string): Option<int>
  {
    if |t| >= 1 && (t[0] == '-' || t[0] == '+') then
      var d := t[1..];
      if AllDigits(d) then
        Some(if t[0] == '-' then -(DigitsValue(d) as int) else DigitsValue(d) as int)
      else None
    else if AllDigits(t) then Some(DigitsValue(t) as int)
    else None
  }

  lemma {:induction false} DigitsOfNat(n: nat)
    ensures DigitsValue(NatToString(n)) == n
    decreases n
  {
    var s := NatToString(n);
    if n < 10 {
      assert s[..|s| - 1] == [];
    } else {
      DigitsOfNat(n / 10);
      assert s[..|s| - 1] == NatToString(n / 10);
    }
  }

  lemma DigitsTrimmed(d: string)
    requires AllDigits(d)
    ensures Trimmed(d) && Trimmed(['-'] + d)
  {
    assert !IsSpace(d[0]) && !IsSpace(d[|d| - 1]);
    assert (['-'] + d)[|d|] == d[|d| - 1];
  }

  lemma ParseDigits(d: string)
    requires AllDigits(d)
    ensures ParseInt(d) == Some(DigitsValue(d) as int)
  {
    DigitsTrimmed(d);
    NoSpaceStrip(d);
  }

  lemma ParseNegDigits(d: string)
    requires AllDigits(d)
    ensures ParseInt(['-'] + d) == Some(-(DigitsValue(d) as int))
  {
    var t := ['-'] + d;
    DigitsTrimmed(d);
    NoSpaceStrip(t);
    assert t[1..] == d;
    assert ParseSigned(t) == Some(-(DigitsValue(d) as int));
  }

  /** `int(str(i)) == i`: the decimal rendering of an identifier reads back as itself. */
  lemma IntRoundTrip(i: int)
    ensures ParseInt(IntToString(i)) == Some(i)
  {
    if i < 0 {
      NegRoundTrip(-i);
      assert IntToString(i) == ['-'] + NatToString(-i);
    } else {
      NatRoundTrip(i);
      assert IntToString(i) == NatToString(i);
    }
  }

  lemma NatRoundTrip(n: nat)
    ensures ParseInt(NatToString(n)) == Some(n)
  {
    var d := NatToString(n);
    assert AllDigits(d);
    ParseDigits(d);
    DigitsOfNat(n);
  }

  lemma NegRoundTrip(n: nat)
    ensures ParseInt(['-'] + NatToString(n)) == Some(-(n as int))
  {
    var d := NatToString(n);
    assert AllDigits(d);
    ParseNegDigits(d);
    DigitsOfNat(n);
  }

  /** Distinct integers render as distinct strings. */
  lemma IntToStringInjective(i: int, j: int)
    ensures i != j ==> IntToString(i) != IntToString(j)
  {
    IntRoundTrip(i);
    IntRoundTrip(j);
  }

  /** The characters Python's `str.isspace()` accepts. */
  predicate IsSpace(c: char) {
    || c == ' ' || ('\U{0009}' <= c <= '\U{000D}') || ('\U{001C}' <= c <= '\U{001F}')
    || c == '\U{0085}' || c == '\U{00A0}' || c == '\U{1680}' || ('\U{2000}' <= c <= '\U{200A}')
    || c == '\U{2028}' || c == '\U{2029}' || c == '\U{202F}' || c == '\U{205F}' || c == '\U{3000}'
  }

  function StripLeft(s: string): (r: string)
    ensures |r| <= |s|
    ensures r == [] || !IsSpace(r[0])
    ensures forall c :: c in r ==> c in s
  {
    if s != [] && IsSpace(s[0]) then StripLeft(s[1..]) else s
  }

  function StripRight(s: string): (r: string)
    ensures |r| <= |s| && (r != [] ==> r[0] == s[0])
    ensures r == [] || !IsSpace(r[|r| - 1])
    ensures forall c :: c in r ==> c in s
  {
    if s != [] && IsSpace(s[|s| - 1]) then StripRight(s[..|s| - 1]) else s
  }

  /** `s.strip()`: white space removed from both ends. */
  function Strip(s: string): (r: string)
    ensures r == [] || (!IsSpace(r[0]) && !IsSpace(r[|r| - 1]))
    ensures forall c :: c in r ==> c in s
  {
    StripRight(StripLeft(s))
  }

  /** A string that `strip()` leaves alone. */
  predicate Trimmed(s: string) {
    s == [] || (!IsSpace(s[0]) && !IsSpace(s[|s| - 1]))
  }

  lemma NoSpaceStrip(s: string)
    requires Trimmed(s)
    ensures Strip(s) == s
  {
  }

  /** Stripping white space around an already trimmed string gives it back. */
  lemma {:induction false} StripPadded(pre: string, s: string, post: string)
    requires forall i :: 0 <= i < |pre| ==> IsSpace(pre[i])
    requires forall i :: 0 <= i < |post| ==> IsSpace(post[i])
    requires s != [] && Trimmed(s)
    ensures Strip(pre + s + post) == s
    decreases |pre| + |post|
  {
    if pre != [] {
      assert (pre + s + post)[1..] == pre[1..] + s + post;
      StripPadded(pre[1..], s, post);
    } else if post != [] {
      var t := pre + s + post;
      assert t == s + post;
      StripLeftKeeps(s, post);
      StripRightPadded(s, post);
    } else {
      assert pre + s + post == s;
    }
  }

  lemma StripLeftKeeps(s: string, post: string)
    requires s != [] && !IsSpace(s[0])
    ensures StripLeft(s + post) == s + post
  {
  }

  lemma {:induction false} StripRightPadded(s: string, post: string)
    requires forall i :: 0 <= i < |post| ==> IsSpace(post[i])
    requires s != [] && !IsSpace(s[|s| - 1])
    ensures StripRight(s + post) == s
    decreases |post|
  {
    if post == [] {
      assert s + post == s;
    } else {
      assert (s + post)[..|s + post| - 1] == s + post[..|post| - 1];
      StripRightPadded(s, post[..|post| - 1]);
    }
  }

  /** Stripping the right end stops at the last non-space character, so a head
      ending in one survives. */
  lemma {:induction false} StripRightKeepsHead(h: string, t: string)
    requires h != [] && !IsSpace(h[|h| - 1])
    ensures StartsWith(StripRight(h + t), h)
    decreases |t|
  {
    if t == [] {
      assert h + t == h;
    } else {
      var s := h + t;
      if IsSpace(s[|s| - 1]) {
        assert s[..|s| - 1] == h + t[..|t| - 1];
        StripRightKeepsHead(h, t[..|t| - 1]);
      } else {
        assert s[..|h|] == h;
      }
    }
  }

  /** A head that begins and ends with non-space characters survives `strip()`
      of any text it opens. */
  lemma StripKeepsHead(h: string, t: string)
    requires h != [] && !IsSpace(h[0]) && !IsSpace(h[|h| - 1])
    ensures StartsWith(Strip(h + t), h)
  {
    StripLeftKeeps(h, t);
    StripRightKeepsHead(h, t);
  }

  predicate StartsWith(s: string, prefix: string) {
    |prefix| <= |s| && s[..|prefix|] == prefix
  }

  /** `pat` occurs in `s` starting at index `i`. */
  predicate OccursAt(s: string, pat: string, i: int) {
    0 <= i <= |s| - |pat| && s[i..i + |pat|] == pat
  }

  /** `pat` occurs somewhere in `s`. */
  ghost predicate Contains(s: string, pat: string) {
    exists i :: OccursAt(s, pat, i)
  }

  /** `s.replace(pat, "")`: every non-overlapping occurrence, scanned from the left, removed. */
  function RemoveAll(s: string, pat: string): (r: string)
    requires pat != []
    ensures |r| <= |s|
    ensures forall c :: c in r ==> c in s
    decreases |s|
  {
    if |s| < |pat| then s
    else if s[..|pat|] == pat then RemoveAll(s[|pat|..], pat)
    else [s[0]] + RemoveAll(s[1..], pat)
  }

  lemma {:induction false} RemoveAllAbsent(s: string, pat: string)
    requires pat != [] && !Contains(s, pat)
    ensures RemoveAll(s, pat) == s
    decreases |s|
  {
    if |s| >= |pat| {
      assert !OccursAt(s, pat, 0);
      assert !Contains(s[1..], pat) by {
        forall i | 0 <= i <= |s| - 1 - |pat|
          ensures !OccursAt(s[1..], pat, i)
        {
          assert s[1..][i..i + |pat|] == s[i + 1..i + 1 + |pat|];
          assert !OccursAt(s, pat, i + 1);
        }
      }
      RemoveAllAbsent(s[1..], pat);
      assert [s[0]] + s[1..] == s;
    }
  }

  /** `s.split(sep)[0]`: the text before the first `sep`, or all of `s`. */
  function BeforeFirst(s: string, sep: char): (r: string)
    ensures StartsWith(s, r)
    ensures sep !in r
    ensures |r| < |s| ==> s[|r|] == sep
  {
    if s == [] then []
    else if s[0] == sep then []
    else [s[0]] + BeforeFirst(s[1..], sep)
  }

  /** The text before the first `sep` is the longest prefix free of `sep`. */
  lemma {:induction false} BeforeFirstPrefix(s: string, p: string, sep: char)
    requires StartsWith(s, p + [sep]) && sep !in p
    ensures BeforeFirst(s, sep) == p
    decreases |p|
  {
    if p != [] {
      assert s[0] == p[0];
      assert StartsWith(s[1..], p[1..] + [sep]) by {
        assert s[1..][..|p[1..] + [sep]|] == s[..|p + [sep]|][1..];
        assert (p + [sep])[1..] == p[1..] + [sep];
      }
      BeforeFirstPrefix(s[1..], p[1..], sep);
      assert [p[0]] + p[1..] == p;
    } else {
      assert s[0] == (p + [sep])[0];
    }
  }

  /** `sep.join(parts)`. */
  function Join(sep: string, parts: seq<string>): string
  {
    if parts == [] then []
    else if |parts| == 1 then parts[0]
    else parts[0] + sep + Join(sep, parts[1..])
  }

  /** `c * n`. */
  function Repeat(c: char, n: nat): (r: string)
    ensures |r| == n && forall i :: 0 <= i < n ==> r[i] == c
  {
    if n == 0 then [] else [c] + Repeat(c, n - 1)
  }
}
